=== FILE: README.md ===
# nef playground discovery and build orchestration, in Dafny

This project models three pieces of nef, the tool that turns Xcode
playgrounds into documentation and compiled artefacts. It proves properties
of each piece.

- **Playground discovery** (`MacPlaygroundSystem`, `mac_playground_system.dfy`).
  `playgrounds(at:)` runs in two steps.
  - Discovery: it enumerates a folder, keeps every file whose extension is
    exactly `pbxproj`, and turns each into its sibling `.xcworkspace`. It
    drops workspaces that do not exist or whose path contains `/Pods/` or
    `/Carthage/`, and fails when none survive.
  - Linking: it reads each workspace's `contents.xcworkspacedata`, resolves
    every `group:…playground` reference against the workspace's folder, and
    fails unless every resolved playground exists and there is at least one.

  The file system is a value: the set of existing paths, what the enumerator
  yields for each folder, and the texts that can be read.
- **Build orchestration** (`NefCompiler`, `nef_compiler.dfy`). `nefPlayground`
  first renders the content folder. Then, playground by playground, it
  resolves exactly one workspace, compiles it for the platform of the
  playground's first page, compiles every page against the one resulting
  framework, and announces the playground. Every step is fail-fast. The
  model is a pure function over the answers of the collaborators (renderer,
  playground system, compiler). It returns the final result together with
  the ordered trace of console messages, statuses and compiler calls.
- **`PlaygroundSystemError` and its `description`**
  (`PlaygroundSystemErrors`, `playground_system_error.dfy`).

Supporting modules:

- `Paths` (`paths.dfy`): file URLs as sequences of non-empty path
  components. It covers `url.path`, `pathExtension`,
  `deletingPathExtension`, `appendingPathExtension`,
  `deletingLastPathComponent` and `String.contains`. An extension is what
  follows a name's last '.', except that a '.' which is the name's first
  character separates nothing: ".pbxproj" has no extension.
- `NonEmptyArray` (`nea.dfy`): Bow's `NEA` and `NEA.fromArray`.
- `Wrappers` (`wrappers.dfy`): the `Result` type.

## Behaviour worth noting

- Finding no valid workspace is an ordinary `.playgrounds(information:)`
  error, not a dedicated error kind.
- A workspace compile yields exactly one framework, which is the pages'
  only dependency.
- Playgrounds, and the pages of a playground, are built one after the
  other, in order. They are not built concurrently.

## Model

| member | source | states |
|---|---|---|
| PlaygroundSystemErrors.DefaultInformationIsEmpty | project/Component/NefRender/Errors/PlaygroundSystemError.swift:5-9 | every case's information defaults to ""; with it the descriptions are exactly "workspaces operation ", "playgrounds operation " and "pages operation ", trailing space kept |
| PlaygroundSystemErrors.Kind | project/Component/NefRender/Errors/PlaygroundSystemError.swift:14-19 | each case's kind word is non-empty and holds no space and no '(' |
| PlaygroundSystemErrors.KindIdentifiesCase | project/Component/NefRender/Errors/PlaygroundSystemError.swift:14-19 | two errors have the same kind word exactly when they are the same case |
| PlaygroundSystemErrors.DescriptionStartsWithKind | project/Component/NefRender/Errors/PlaygroundSystemError.swift:13-20 | every description starts with "<kind> operation " |
| PlaygroundSystemErrors.DescriptionRecoversInformation | project/Component/NefRender/Errors/PlaygroundSystemError.swift:13-20 | a description that is just the prefix means empty information; otherwise the information is what lies between the parentheses after the prefix |
| PlaygroundSystemErrors.Description | project/Component/NefRender/Errors/PlaygroundSystemError.swift:12-21 | empty information gives "<kind> operation ", trailing space kept; any other information gives "<kind> operation (<information>)" |
| PlaygroundSystemErrors.DescriptionInjective | project/Component/NefRender/Errors/PlaygroundSystemError.swift:12-21 | equal descriptions come from equal errors, case and information alike |
| Paths.PathString | project/Component/nef/Instances/MacPlaygroundSystem.swift:37 | `url.path` is never empty and starts with '/' |
| Paths.StemAndExtension | project/Component/nef/Instances/MacPlaygroundSystem.swift:45-47 | a component with a '.' after its first character is its stem, '.', its extension; otherwise it is its own stem and its extension is "" |
| Paths.Contains | project/Component/nef/Instances/MacPlaygroundSystem.swift:37 | `contains` holds only for a substring no longer than the string, and every string contains itself |
| Paths.Extension | project/Component/nef/Instances/MacPlaygroundSystem.swift:45 | `pathExtension` holds no '.', is a proper suffix of a non-empty name, and is "" when no '.' follows the name's first character |
| Paths.Stem | project/Component/nef/Instances/MacPlaygroundSystem.swift:47 | `deletingPathExtension` gives a prefix of the name, non-empty for a non-empty name, and the whole name when no '.' follows its first character |
| Paths.WithExtension | project/Component/nef/Instances/MacPlaygroundSystem.swift:47 | appending a dot-free extension puts the last '.' right after the stem, and reading back gives that extension and that stem |
| Paths.ReplacingExtension | project/Component/nef/Instances/MacPlaygroundSystem.swift:47 | swapping the extension keeps the parent and the stem, and gives the new extension |
| Paths.Parent | project/Component/nef/Instances/MacPlaygroundSystem.swift:46 | the parent is the path without its last component |
| Paths.SlashedContainsFolder | project/Component/nef/Instances/MacPlaygroundSystem.swift:37 | the rendered path contains "/t/" exactly when some component other than the last is t |
| Paths.IsDependency | project/Component/nef/Instances/MacPlaygroundSystem.swift:36-38 | for a well-formed path, `isDependency` holds exactly when a folder on the way (not the last component) is named "Pods" or "Carthage" |
| Paths.DependencyByComponents | project/Component/nef/Instances/MacPlaygroundSystem.swift:36-38 | the rendered path contains "/Pods/" or "/Carthage/" exactly when a folder on the way is named "Pods" or "Carthage" |
| MacPlaygroundSystem.Candidate | project/Component/nef/Instances/MacPlaygroundSystem.swift:45-47 | a file has a candidate exactly when it is not directly under the root and its extension is exactly "pbxproj"; the candidate is one component shorter and a sibling of the project folder |
| MacPlaygroundSystem.HiddenProjectFileHasNoCandidate | project/Component/nef/Instances/MacPlaygroundSystem.swift:45 | a hidden ".pbxproj" file has extension "", so it yields no workspace |
| MacPlaygroundSystem.CandidateName | project/Component/nef/Instances/MacPlaygroundSystem.swift:47 | the candidate's extension is "xcworkspace" and its stem is the project folder's stem |
| MacPlaygroundSystem.Kept | project/Component/nef/Instances/MacPlaygroundSystem.swift:48 | for a well-formed path, a candidate is kept exactly when it exists and no folder on its way is named "Pods" or "Carthage" |
| NonEmptyArray.NEA.All | project/Component/nef/Instances/MacPlaygroundSystem.swift:69 | `all()` has one more element than the tail, the head first and the tail after it |
| NonEmptyArray.FromSeq | project/Component/nef/Instances/MacPlaygroundSystem.swift:51-53 | `NEA.fromArray` gives nothing exactly for the empty array, and otherwise a non-empty array of the same elements in order |
| MacPlaygroundSystem.KeptCandidates | project/Component/nef/Instances/MacPlaygroundSystem.swift:44-49 | there are never more workspaces than enumerated files |
| MacPlaygroundSystem.KeptCandidatesSound | project/Component/nef/Instances/MacPlaygroundSystem.swift:44-49 | every kept workspace is yielded by some enumerated file |
| MacPlaygroundSystem.KeptCandidatesComplete | project/Component/nef/Instances/MacPlaygroundSystem.swift:44-49 | every workspace an enumerated file yields is kept |
| MacPlaygroundSystem.KeptCandidatesMembers | project/Component/nef/Instances/MacPlaygroundSystem.swift:44-49 | a workspace is kept exactly when some enumerated file yields it, exists and is not a dependency |
| MacPlaygroundSystem.KeptCandidatesAppend | project/Component/nef/Instances/MacPlaygroundSystem.swift:44-49 | kept workspaces come out in enumeration order |
| MacPlaygroundSystem.Workspaces | project/Component/nef/Instances/MacPlaygroundSystem.swift:35-54 | no enumerator gives `.playgrounds()`; otherwise success exactly when some candidate is kept, the result being all kept candidates in order; else `.playgrounds` with "not found any valid workspace in '<folder path>'" |
| MacPlaygroundSystem.WorkspacesFound | project/Component/nef/Instances/MacPlaygroundSystem.swift:36-49 | on success, the workspaces are exactly the existing candidates none of whose folders is "Pods" or "Carthage" |
| MacPlaygroundSystem.CandidateWellFormed | project/Component/nef/Instances/MacPlaygroundSystem.swift:46-47 | a project file's workspace path is as well-formed as the file's path |
| MacPlaygroundSystem.WorkspacesNonRoot | project/Component/nef/Instances/MacPlaygroundSystem.swift:44-53 | no discovered workspace is the root folder |
| MacPlaygroundSystem.Descriptor | project/Component/nef/Instances/MacPlaygroundSystem.swift:58 | the descriptor read is `<workspace>/contents.xcworkspacedata` |
| MacPlaygroundSystem.Resolve | project/Component/nef/Instances/MacPlaygroundSystem.swift:61 | a reference resolves to the workspace's parent folder followed by the reference |
| MacPlaygroundSystem.WorkspacePlaygrounds | project/Component/nef/Instances/MacPlaygroundSystem.swift:57-67 | an unreadable descriptor fails; otherwise success exactly when every resolved reference exists, giving them in order, else "some playgrounds are not linked properly" |
| MacPlaygroundSystem.LinkAll | project/Component/nef/Instances/MacPlaygroundSystem.swift:69-70 | success exactly when every workspace links; a failure is some workspace's; the result has one path per reference, all existing, each from some workspace |
| MacPlaygroundSystem.ReadPlaygrounds | project/Component/nef/Instances/MacPlaygroundSystem.swift:56-75 | success exactly when linking succeeds with at least one reference, and then the linked paths in order; a linking failure is passed through unchanged; no reference at all gives "can not find any playground in the workspace" |
| MacPlaygroundSystem.FindPlaygrounds | project/Component/nef/Instances/MacPlaygroundSystem.swift:12-20 | a discovery failure is the call's failure; otherwise the call reads the playgrounds of the discovered workspaces |
| MacPlaygroundSystem.NoDescriptorReadWithoutWorkspaces | project/Component/nef/Instances/MacPlaygroundSystem.swift:16-19 | when discovery fails the outcome does not depend on any text on disk |
| MacPlaygroundSystem.KeptCandidatesIgnoreTexts | project/Component/nef/Instances/MacPlaygroundSystem.swift:44-49 | discovery reads no file contents |
| MacPlaygroundSystem.UnlinkedPlaygroundFails | project/Component/nef/Instances/MacPlaygroundSystem.swift:60-74 | with every descriptor readable, one reference naming no existing path makes the whole call fail with "some playgrounds are not linked properly" |
| MacPlaygroundSystem.PlaygroundsAllOrNothing | project/Component/nef/Instances/MacPlaygroundSystem.swift:56-75 | the call succeeds exactly when every descriptor is readable, every reference exists and there is one; then every path exists and there is one per reference |
| MacPlaygroundSystem.PlaygroundsFound | project/Component/nef/Instances/MacPlaygroundSystem.swift:58-70 | on success the paths are exactly the discovered workspaces' references, resolved |
| MacPlaygroundSystem.LinkAllFound | project/Component/nef/Instances/MacPlaygroundSystem.swift:69-70 | linked paths are exactly the resolved references of all the workspaces |
| MacPlaygroundSystem.WorkspaceLinks | project/Component/nef/Instances/MacPlaygroundSystem.swift:59-61 | each path a workspace links is one of its references, resolved |
| NefCompiler.Name | project/Component/NefCompiler/NefCompiler.swift:104 | `lastPathComponent` is never empty, and for a well-formed path it is "/" exactly for the root |
| NefCompiler.Joined | project/Component/NefCompiler/NefCompiler.swift:62 | `joined()` of no pieces is "", and of one piece is that piece; `JoinedAppend` joins the rest |
| NefCompiler.WorkspaceMessage | project/Component/NefCompiler/NefCompiler.swift:104 | the announcement starts with "Building workspace '" and ends with a quote |
| NefCompiler.PageMessage | project/Component/NefCompiler/NefCompiler.swift:66 | the announcement starts with the tab of "\t• Compiling page '" and ends with a quote |
| NefCompiler.PlaygroundMessage | project/Component/NefCompiler/NefCompiler.swift:85 | the announcement starts with "Building playground '" and ends with a quote |
| NefCompiler.MessagesIdentifyNames | project/Component/NefCompiler/NefCompiler.swift:66-104 | the workspace, page and playground announcements never coincide, and each gives back, between its prefix and its closing quote, the stem it announces |
| NefCompiler.ReportStatus | project/Component/NefCompiler/NefCompiler.swift:106 | `reportStatus` adds one status event, a success exactly when the step succeeded |
| NefCompiler.JoinedAppend | project/Component/NefCompiler/NefCompiler.swift:62 | joining the pieces of two parts gives the two joined parts, concatenated |
| NefCompiler.Traverse | project/Component/NefCompiler/NefCompiler.swift:44-46 | traversing nothing succeeds with no events |
| NefCompiler.TraverseOk | project/Component/NefCompiler/NefCompiler.swift:44-46 | a traversal succeeds exactly when every step does |
| NefCompiler.TraverseSnoc | project/Component/NefCompiler/NefCompiler.swift:44-46 | steps run in order; a step added at the end runs only after all earlier ones succeeded |
| NefCompiler.TraverseStopsAtFailure | project/Component/NefCompiler/NefCompiler.swift:44-46 | nothing after the first failing step runs, and its error is the result |
| NefCompiler.TraverseEvents | project/Component/NefCompiler/NefCompiler.swift:44-46 | every event of a traversal is an event of one of its steps |
| NefCompiler.XcWorkspace | project/Component/NefCompiler/NefCompiler.swift:111-126 | success exactly when the playground system answers exactly one workspace, which is the result; any failure, including two or more workspaces, is `.getWorkspace(folder:)` |
| NefCompiler.ResolvedWorkspaceIsUnique | project/Component/NefCompiler/NefCompiler.swift:111-126 | if the compiler's playground system answers as `Workspaces` does, the resolved workspace is the only kept candidate of the folder |
| NefCompiler.CompileWorkspaceStep | project/Component/NefCompiler/NefCompiler.swift:91-108 | "Building workspace '<name>'", the compile, then its status; success gives the singleton framework list; errors become `.workspace(workspace, info:)` |
| NefCompiler.CompilePageStep | project/Component/NefCompiler/NefCompiler.swift:61-73 | "\t• Compiling page '<title>'", the compile of the joined pieces, then its status; errors become `.content(info:)` |
| NefCompiler.CompilePages | project/Component/NefCompiler/NefCompiler.swift:75-89 | the pages' events, followed by "Building playground '<name>'" and a success status only when the pages succeeded |
| NefCompiler.PlaygroundAnnouncedOnlyOnSuccess | project/Component/NefCompiler/NefCompiler.swift:75-89 | the playground is announced exactly when every page compiled, and then as the last but one event |
| NefCompiler.PagesStopAtFirstFailure | project/Component/NefCompiler/NefCompiler.swift:76-80 | the first failing page stops the playground with its error, and no later page is compiled |
| NefCompiler.CompilePageList | project/Component/NefCompiler/NefCompiler.swift:76-80 | the pages succeed exactly when every page compiles |
| NefCompiler.CompilePageStepEvents | project/Component/NefCompiler/NefCompiler.swift:61-73 | one page's events are its announcement, a compile for this playground and these frameworks, and a status |
| NefCompiler.CompilePageListEvents | project/Component/NefCompiler/NefCompiler.swift:76-80 | compiling pages emits only page announcements, compiles for this playground and these frameworks, and statuses |
| NefCompiler.CompilePagesEvents | project/Component/NefCompiler/NefCompiler.swift:75-89 | compiling pages neither lists nor compiles a workspace |
| NefCompiler.BuildPages | project/Component/NefCompiler/NefCompiler.swift:49-58 | a playground's build starts by listing the workspaces of the content folder |
| NefCompiler.BuildPagesShape | project/Component/NefCompiler/NefCompiler.swift:53-57 | a playground's events: the lookup; then the workspace's announcement, compile and status; then the pages' events only if it compiled |
| NefCompiler.BuildPagesOrder | project/Component/NefCompiler/NefCompiler.swift:53-57 | one lookup, first; one workspace compile, for the first page's platform; every page compile comes after that compile's success status, with no other workspace compile between, and uses the one framework it produced |
| NefCompiler.BuildPagesCompiled | project/Component/NefCompiler/NefCompiler.swift:53-57 | with a unique workspace that compiles, the playground's events are the workspace's four, then the pages' |
| NefCompiler.BuildNefPlayground | project/Component/NefCompiler/NefCompiler.swift:20-27 | rendering comes first; a render failure is the result and nothing else happens; otherwise the rendered playgrounds are built |
| NefCompiler.NefPlaygroundOrdering | project/Component/NefCompiler/NefCompiler.swift:20-27 | a failed render compiles nothing; in any run, each page compile follows its own playground's successful workspace compile, with no other workspace compile between, and uses the framework that compile produced |
| NefCompiler.BuildPlaygroundsPagesAfterWorkspace | project/Component/NefCompiler/NefCompiler.swift:43-47 | across all playgrounds, each page compile follows the nearest preceding workspace compile, which succeeded and produced the page's one framework |
| NefCompiler.BuildPlaygrounds | project/Component/NefCompiler/NefCompiler.swift:43-47 | the build succeeds exactly when every playground builds |
| NefCompiler.PlaygroundsStopAtFirstFailure | project/Component/NefCompiler/NefCompiler.swift:43-47 | the first failing playground stops the build with its error; no later playground is built |
| NefCompiler.PlatformIn | project/Component/NefCompiler/NefCompiler.swift:128-130 | `platform(in:)` is the platform of the first page of the first playground |
| NefCompiler.FirstWorkspaceCompileUsesPlatformIn | project/Component/NefCompiler/NefCompiler.swift:128-130 | the first workspace compile of a run is for `platform(in:)`: the first page of the first playground |
| NefCompiler.OnePageCompiles | project/Component/NefCompiler/NefCompiler.swift:75-89 | a single page that compiles: its three events, then the playground's announcement and status |
| NefCompiler.OnePageBuild | project/Component/NefCompiler/NefCompiler.swift:49-58 | one workspace and one page that compile give exactly nine events in order: the four of the workspace, then the five of the page and the playground |
| NefCompiler.OnePlaygroundBuilds | project/Component/NefCompiler/NefCompiler.swift:43-47 | building a single playground that succeeds is that playground's build |
| NefCompiler.SinglePageRun | project/Component/NefCompiler/NefCompiler.swift:20-27 | one workspace, one playground, one page: exactly one workspace compile and one page compile, ten events in all, ending with the playground's announcement and a success status |

## Left out

- The regular expression behind `String.matches` (MacPlaygroundSystem.swift:80-84) is not modelled. Extraction is an uninterpreted function from the descriptor's text to the ordered references, each already split into path components. Case-insensitivity, greedy matching and the character-count range are not modelled.
- `parFlatTraverse` runs the workspaces in parallel. The model concatenates their results sequentially and fail-fast. The order of playgrounds across workspaces is not claimed; only membership and counts are.
- An unreadable descriptor fails with `Unreadable(path)`. What the code does there (`IO.invoke` with an error that is not a `PlaygroundSystemError`, MacPlaygroundSystem.swift:58) is not modelled.
- The enumerator's options (skipping hidden files, the directory key) are not modelled. What the enumerator yields for a folder is an input.
- `name`, `unique` and `pages` of `MacPlaygroundSystem` are `fatalError()` stubs. They are not modelled.
- The render, compiler-system, console and file-system collaborators are not modelled. Their answers are inputs: `Environment`'s functions. The console is the event trace.
- The compiler asks `env.playgroundSystem.xcworkspaces(at:)` (NefCompiler.swift:113), which is one of those inputs; `MacPlaygroundSystem`'s own `xcworkspaces(at:)` is private. `NefCompiler.ResolvedWorkspaceIsUnique` says what follows if the input answers as `MacPlaygroundSystem.Workspaces` does.
- `removeExtension` (NefCommon) is not part of this model. It is taken to remove what follows the last '.', like `deletingPathExtension`.
- `reportStatus` and `printStatus` (NefCommon) are not part of this model. Each is one `Status(success)` event after the step. Any message they print on failure is not modelled.
- `MacPlaygroundSystem.Candidate`: a project file directly under the root folder has no candidate. What Foundation does with the root there is not modelled.
- `MacPlaygroundSystem.Resolve` requires a workspace other than the root. Discovery never yields the root (`WorkspacesNonRoot`).
- The rendered pieces of a page are a plain sequence. That the rendered output is non-empty is not modelled.
- `renderPlayground(_:)` (NefCompiler.swift:30-34) is not used by `nefPlayground` and is not modelled.
- The command-line front ends, the Jekyll and Carbon renderers and the `PlaygroundEnvironment` records are not part of this model.

=== FILE: mac_playground_system.dfy ===
/**
 * `MacPlaygroundSystem.playgrounds(at:)`: find the Xcode workspaces under a
 * folder, then the playgrounds each workspace links, over an abstract
 * file system.
 */
module MacPlaygroundSystem {
  import opened Wrappers
  import opened NonEmptyArray
  import opened Paths
  import opened PlaygroundSystemErrors

  /**
   * What the file manager answers. `enumerations[folder]` is what the
   * enumerator over `folder` (hidden files skipped) yields, in order; a folder
   * with no entry is one for which no enumerator can be created. `texts`
   * holds the files that can be read as text.
   */
  datatype FileSystem = FileSystem(
    existing: set<Path>,
    enumerations: map<Path, seq<Path>>,
    texts: map<Path, string>)

  /** A reference relative to the folder that holds the workspace. */
  type RelPath = seq<Component>

  /**
   * The matches of `(?<=group:).*.playground(?=")` in a workspace
   * descriptor, in order, each split into its path components.
   */
  type Extractor = string -> seq<RelPath>

  /**
   * Why `playgrounds(at:)` failed: a `PlaygroundSystemError`, or a descriptor
   * that could not be read as text.
   */
  datatype Failure = System(error: PlaygroundSystemError) | Unreadable(path: Path)

  const ProjectExtension := "pbxproj"
  const WorkspaceExtension := "xcworkspace"
  const DescriptorName := "contents.xcworkspacedata"

  // ---------------------------------------------------------------------
  // xcworkspaces(at:)

  /**
   * The workspace a project file stands for: for ".../App.xcodeproj/project.pbxproj"
   * it is ".../App.xcworkspace", a sibling of the project folder. Only files
   * whose extension is exactly "pbxproj" have one.
   */
  function Candidate(file: Path): (r: Option<Path>)
    ensures r.Some? <==> |file| >= 2 && Extension(LastComponent(file)) == ProjectExtension
    ensures r.Some? ==> |r.value| == |file| - 1 && Parent(r.value) == Parent(Parent(file))
  {
    if |file| >= 2 && Extension(LastComponent(file)) == ProjectExtension then
      Some(ReplacingExtension(Parent(file), WorkspaceExtension))
    else
      None
  }

  /**
   * The candidate's name: the project folder's stem with the extension
   * "xcworkspace".
   */
  lemma CandidateName(file: Path)
    requires Candidate(file).Some?
    ensures Extension(LastComponent(Candidate(file).value)) == WorkspaceExtension
    ensures Stem(LastComponent(Candidate(file).value)) == Stem(LastComponent(Parent(file)))
  {
  }

  /** A hidden ".pbxproj" file has no extension, so it stands for no workspace. */
  lemma HiddenProjectFileHasNoCandidate(file: Path)
    requires |file| >= 2 && LastComponent(file) == "." + ProjectExtension
    ensures Candidate(file).None?
  {
    assert LastComponent(file)[1..] == ProjectExtension;
  }

  /**
   * A candidate survives when it exists and is not under a dependency
   * folder: for a well-formed path, when no folder on its way is named
   * "Pods" or "Carthage".
   */
  predicate Kept(fs: FileSystem, w: Path)
    ensures WellFormed(w) ==>
      (Kept(fs, w) <==> w in fs.existing && !exists i :: 0 <= i < |w| - 1 && (w[i] == "Pods" || w[i] == "Carthage"))
  {
    w in fs.existing && !IsDependency(w)
  }

  /** `f` is an enumerated project file whose workspace survives as `w`. */
  predicate Yields(fs: FileSystem, f: Path, w: Path) {
    Candidate(f) == Some(w) && Kept(fs, w)
  }

  /** The `compactMap` over the enumerated files. */
  function KeptCandidates(fs: FileSystem, files: seq<Path>): (ws: seq<Path>)
    ensures |ws| <= |files|
  {
    if files == [] then []
    else
      var rest := KeptCandidates(fs, files[1..]);
      match Candidate(files[0])
      case Some(w) => if Kept(fs, w) then [w] + rest else rest
      case None => rest
  }

  /** Every kept candidate is yielded by some enumerated file. */
  lemma {:induction false} KeptCandidatesSound(fs: FileSystem, files: seq<Path>, w: Path)
    requires w in KeptCandidates(fs, files)
    ensures exists f :: f in files && Yields(fs, f, w)
  {
    var f0, tail := files[0], files[1..];
    if w in KeptCandidates(fs, tail) {
      KeptCandidatesSound(fs, tail, w);
      var f :| f in tail && Yields(fs, f, w);
      assert f in files;
    } else {
      assert Yields(fs, f0, w);
      assert f0 in files;
    }
  }

  /** Every workspace an enumerated file yields is kept. */
  lemma {:induction false} KeptCandidatesComplete(fs: FileSystem, files: seq<Path>, f: Path, w: Path)
    requires f in files && Yields(fs, f, w)
    ensures w in KeptCandidates(fs, files)
  {
    var rest := KeptCandidates(fs, files[1..]);
    if f == files[0] {
      assert KeptCandidates(fs, files) == [w] + rest;
    } else {
      assert f in files[1..];
      KeptCandidatesComplete(fs, files[1..], f, w);
      assert KeptCandidates(fs, files) == rest || KeptCandidates(fs, files) == [Candidate(files[0]).value] + rest;
    }
  }

  /** The kept candidates are exactly the workspaces some enumerated file yields. */
  lemma KeptCandidatesMembers(fs: FileSystem, files: seq<Path>, w: Path)
    ensures w in KeptCandidates(fs, files) <==> exists f :: f in files && Yields(fs, f, w)
    ensures w in KeptCandidates(fs, files) ==> |w| >= 1 && Kept(fs, w)
  {
    if w in KeptCandidates(fs, files) {
      KeptCandidatesSound(fs, files, w);
    }
    if exists f :: f in files && Yields(fs, f, w) {
      var f :| f in files && Yields(fs, f, w);
      KeptCandidatesComplete(fs, files, f, w);
    }
  }

  /** Kept candidates come out in enumeration order. */
  lemma {:induction false} KeptCandidatesAppend(fs: FileSystem, a: seq<Path>, b: seq<Path>)
    ensures KeptCandidates(fs, a + b) == KeptCandidates(fs, a) + KeptCandidates(fs, b)
  {
    if a == [] {
      assert a + b == b;
    } else {
      assert (a + b)[0] == a[0];
      assert (a + b)[1..] == a[1..] + b;
      KeptCandidatesAppend(fs, a[1..], b);
    }
  }

  /**
   * `xcworkspaces(at:)`: the kept candidates of the enumeration, which must
   * not be empty. Both failures are `.playgrounds` errors.
   */
  function Workspaces(fs: FileSystem, folder: Path): (r: Result<NEA<Path>, PlaygroundSystemError>)
    ensures folder !in fs.enumerations ==> r == Err(Playgrounds())
    ensures r.Ok? <==> folder in fs.enumerations && KeptCandidates(fs, fs.enumerations[folder]) != []
    ensures r.Ok? ==> r.value.All() == KeptCandidates(fs, fs.enumerations[folder])
    ensures r.Err? && folder in fs.enumerations ==>
      r.error == Playgrounds("not found any valid workspace in '" + PathString(folder) + "'")
  {
    if folder !in fs.enumerations then Err(Playgrounds())
    else
      var ws := KeptCandidates(fs, fs.enumerations[folder]);
      match FromSeq(ws)
      case None => Err(Playgrounds("not found any valid workspace in '" + PathString(folder) + "'"))
      case Some(n) => Ok(n)
  }

  /**
   * What a successful discovery returns, stated on the components of the
   * paths: exactly the existing candidates none of whose folders is named
   * "Pods" or "Carthage".
   */
  lemma {:induction false} WorkspacesFound(fs: FileSystem, folder: Path, w: Path)
    requires folder in fs.enumerations
    requires forall f :: f in fs.enumerations[folder] ==> WellFormed(f)
    requires Workspaces(fs, folder).Ok?
    ensures w in Workspaces(fs, folder).value.All() <==>
      && w in fs.existing
      && (exists f :: f in fs.enumerations[folder] && Candidate(f) == Some(w))
      && !(exists i :: 0 <= i < |w| - 1 && (w[i] == "Pods" || w[i] == "Carthage"))
  {
    var files := fs.enumerations[folder];
    KeptCandidatesMembers(fs, files, w);
    if exists f :: f in files && Candidate(f) == Some(w) {
      var f :| f in files && Candidate(f) == Some(w);
      CandidateWellFormed(f);
      DependencyByComponents(w);
    }
  }

  /** The workspace extension holds neither a '/' nor a '.'. */
  lemma WorkspaceExtensionIsPlain()
    ensures '/' !in WorkspaceExtension && '.' !in WorkspaceExtension
  {
  }

  /** Candidates of well-formed files are well-formed. */
  lemma {:induction false} CandidateWellFormed(f: Path)
    requires WellFormed(f) && Candidate(f).Some?
    ensures WellFormed(Candidate(f).value)
  {
    ParentWellFormed(f);
    WorkspaceExtensionIsPlain();
    ReplacingExtensionWellFormed(Parent(f), WorkspaceExtension);
  }

  /** Discovered workspaces are never the root folder. */
  lemma WorkspacesNonRoot(fs: FileSystem, folder: Path)
    requires Workspaces(fs, folder).Ok?
    ensures AllNonRoot(Workspaces(fs, folder).value.All())
  {
    var ws := Workspaces(fs, folder).value.All();
    forall i | 0 <= i < |ws| ensures ws[i] != [] {
      KeptCandidatesMembers(fs, fs.enumerations[folder], ws[i]);
    }
  }

  // ---------------------------------------------------------------------
  // readPlaygrounds(in:)

  /** `<workspace>/contents.xcworkspacedata`. */
  function Descriptor(w: Path): (d: Path)
    ensures |d| == |w| + 1 && Parent(d) == w && LastComponent(d) == DescriptorName
  {
    w + [DescriptorName]
  }

  /** A reference resolved against the folder that holds the workspace. */
  function Resolve(w: Path, reference: RelPath): (p: Path)
    requires w != []
    ensures |p| == |w| - 1 + |reference|
    ensures p[..|w| - 1] == Parent(w) && p[|w| - 1..] == reference
  {
    Parent(w) + reference
  }

  /** The playgrounds one workspace links, all of which must exist. */
  function WorkspacePlaygrounds(fs: FileSystem, extract: Extractor, w: Path): (r: Result<seq<Path>, Failure>)
    requires w != []
    ensures Descriptor(w) !in fs.texts ==> r == Err(Unreadable(Descriptor(w)))
    ensures Descriptor(w) in fs.texts ==>
      var refs := extract(fs.texts[Descriptor(w)]);
      && (r.Ok? <==> forall i :: 0 <= i < |refs| ==> Resolve(w, refs[i]) in fs.existing)
      && (r.Ok? ==> |r.value| == |refs| && forall i :: 0 <= i < |refs| ==> r.value[i] == Resolve(w, refs[i]))
      && (r.Err? ==> r.error == System(Playgrounds("some playgrounds are not linked properly")))
    ensures r.Ok? ==> forall p :: p in r.value ==> p in fs.existing
  {
    if Descriptor(w) !in fs.texts then Err(Unreadable(Descriptor(w)))
    else
      var refs := extract(fs.texts[Descriptor(w)]);
      var playgrounds := seq(|refs|, i requires 0 <= i < |refs| => Resolve(w, refs[i]));
      assert forall i :: 0 <= i < |refs| ==> playgrounds[i] == Resolve(w, refs[i]);
      if forall i :: 0 <= i < |playgrounds| ==> playgrounds[i] in fs.existing then Ok(playgrounds)
      else Err(System(Playgrounds("some playgrounds are not linked properly")))
  }

  /** Every path is a non-empty path. */
  predicate AllNonRoot(ws: seq<Path>) {
    forall i :: 0 <= i < |ws| ==> ws[i] != []
  }

  /** The number of references all the descriptors make together. */
  function ReferenceCount(fs: FileSystem, extract: Extractor, ws: seq<Path>): nat {
    if ws == [] then 0
    else
      (if Descriptor(ws[0]) in fs.texts then |extract(fs.texts[Descriptor(ws[0])])| else 0)
      + ReferenceCount(fs, extract, ws[1..])
  }

  /**
   * The traversal over the workspaces, concatenating what each one links;
   * the first failing workspace fails the whole traversal.
   */
  function LinkAll(fs: FileSystem, extract: Extractor, ws: seq<Path>): (r: Result<seq<Path>, Failure>)
    requires AllNonRoot(ws)
    ensures r.Ok? <==> forall i :: 0 <= i < |ws| ==> WorkspacePlaygrounds(fs, extract, ws[i]).Ok?
    ensures r.Err? ==> exists i :: 0 <= i < |ws| && WorkspacePlaygrounds(fs, extract, ws[i]) == Err(r.error)
    ensures r.Ok? ==> |r.value| == ReferenceCount(fs, extract, ws)
    ensures r.Ok? ==> forall p :: p in r.value ==> p in fs.existing
    ensures r.Ok? ==> forall p :: p in r.value <==>
      exists i :: 0 <= i < |ws| && p in WorkspacePlaygrounds(fs, extract, ws[i]).value
  {
    if ws == [] then Ok([])
    else
      var first := WorkspacePlaygrounds(fs, extract, ws[0]);
      var rest := LinkAll(fs, extract, ws[1..]);
      assert forall i :: 1 <= i < |ws| ==> ws[i] == ws[1..][i - 1];
      if first.Err? then Err(first.error)
      else if rest.Err? then Err(rest.error)
      else
        var all := first.value + rest.value;
        assert forall p :: p in rest.value ==>
          exists i :: 1 <= i < |ws| && p in WorkspacePlaygrounds(fs, extract, ws[i]).value;
        Ok(all)
  }

  /**
   * `readPlaygrounds(in:)`: every workspace's playgrounds, which together
   * must not be empty.
   */
  function ReadPlaygrounds(fs: FileSystem, extract: Extractor, ws: NEA<Path>): (r: Result<NEA<Path>, Failure>)
    requires AllNonRoot(ws.All())
    ensures r.Ok? <==> LinkAll(fs, extract, ws.All()).Ok? && ReferenceCount(fs, extract, ws.All()) > 0
    ensures LinkAll(fs, extract, ws.All()).Err? ==> r == Err(LinkAll(fs, extract, ws.All()).error)
    ensures LinkAll(fs, extract, ws.All()).Ok? && r.Err? ==>
      r.error == System(Playgrounds("can not find any playground in the workspace"))
    ensures r.Ok? ==> r.value.All() == LinkAll(fs, extract, ws.All()).value
  {
    match LinkAll(fs, extract, ws.All())
    case Err(e) => Err(e)
    case Ok(all) =>
      match FromSeq(all)
      case None => Err(System(Playgrounds("can not find any playground in the workspace")))
      case Some(n) => Ok(n)
  }

  /** `playgrounds(at:)`: the workspaces under `folder`, then their playgrounds. */
  function FindPlaygrounds(fs: FileSystem, extract: Extractor, folder: Path): (r: Result<NEA<Path>, Failure>)
    ensures Workspaces(fs, folder).Err? ==> r == Err(System(Workspaces(fs, folder).error))
    ensures Workspaces(fs, folder).Ok? ==>
      AllNonRoot(Workspaces(fs, folder).value.All()) && r == ReadPlaygrounds(fs, extract, Workspaces(fs, folder).value)
  {
    match Workspaces(fs, folder)
    case Err(e) => Err(System(e))
    case Ok(ws) => WorkspacesNonRoot(fs, folder); ReadPlaygrounds(fs, extract, ws)
  }

  // ---------------------------------------------------------------------
  // Properties of playgrounds(at:)

  /**
   * When workspace discovery fails no descriptor is read: the outcome is the
   * discovery error whatever the descriptors say.
   */
  lemma {:induction false} NoDescriptorReadWithoutWorkspaces(fs: FileSystem, texts: map<Path, string>, extract: Extractor, folder: Path)
    requires Workspaces(fs, folder).Err?
    ensures FindPlaygrounds(fs, extract, folder) == Err(System(Workspaces(fs, folder).error))
    ensures FindPlaygrounds(fs.(texts := texts), extract, folder) == FindPlaygrounds(fs, extract, folder)
  {
    var fs' := fs.(texts := texts);
    assert forall w :: Kept(fs', w) == Kept(fs, w);
    KeptCandidatesIgnoreTexts(fs, texts, if folder in fs.enumerations then fs.enumerations[folder] else []);
  }

  lemma {:induction false} KeptCandidatesIgnoreTexts(fs: FileSystem, texts: map<Path, string>, files: seq<Path>)
    ensures KeptCandidates(fs.(texts := texts), files) == KeptCandidates(fs, files)
  {
    if files != [] {
      KeptCandidatesIgnoreTexts(fs, texts, files[1..]);
    }
  }

  /**
   * All-or-nothing linkage: the call succeeds exactly when discovery
   * succeeds, every descriptor can be read, every reference resolves to an
   * existing path and there is at least one reference; then every returned
   * path exists and there is one per reference.
   */
  lemma {:induction false} PlaygroundsAllOrNothing(fs: FileSystem, extract: Extractor, folder: Path)
    ensures var r := FindPlaygrounds(fs, extract, folder);
      r.Ok? <==>
        && Workspaces(fs, folder).Ok?
        && var ws := Workspaces(fs, folder).value.All();
        && (forall i :: 0 <= i < |ws| ==>
              && ws[i] != []
              && Descriptor(ws[i]) in fs.texts
              && (forall j :: 0 <= j < |extract(fs.texts[Descriptor(ws[i])])| ==>
                    Resolve(ws[i], extract(fs.texts[Descriptor(ws[i])])[j]) in fs.existing))
        && ReferenceCount(fs, extract, ws) > 0
    ensures var r := FindPlaygrounds(fs, extract, folder);
      r.Ok? ==>
        && (forall p :: p in r.value.All() ==> p in fs.existing)
        && |r.value.All()| == ReferenceCount(fs, extract, Workspaces(fs, folder).value.All())
  {
  }

  /**
   * When every descriptor can be read but one reference names no existing
   * path, the whole call fails with the linking error.
   */
  lemma {:induction false} UnlinkedPlaygroundFails(fs: FileSystem, extract: Extractor, folder: Path, i: nat, j: nat)
    requires Workspaces(fs, folder).Ok?
    requires var ws := Workspaces(fs, folder).value.All();
      && (forall k :: 0 <= k < |ws| ==> Descriptor(ws[k]) in fs.texts)
      && i < |ws| && ws[i] != [] && j < |References(fs, extract, ws[i])|
      && Resolve(ws[i], References(fs, extract, ws[i])[j]) !in fs.existing
    ensures FindPlaygrounds(fs, extract, folder) == Err(System(Playgrounds("some playgrounds are not linked properly")))
  {
    var ws := Workspaces(fs, folder).value.All();
    WorkspacesNonRoot(fs, folder);
    assert WorkspacePlaygrounds(fs, extract, ws[i]).Err?;
    var linked := LinkAll(fs, extract, ws);
    assert linked.Err?;
    var k :| 0 <= k < |ws| && WorkspacePlaygrounds(fs, extract, ws[k]) == Err(linked.error);
    assert linked.error == System(Playgrounds("some playgrounds are not linked properly"));
  }

  /** The references a workspace's descriptor makes; none when it cannot be read. */
  function References(fs: FileSystem, extract: Extractor, w: Path): seq<RelPath> {
    if Descriptor(w) in fs.texts then extract(fs.texts[Descriptor(w)]) else []
  }

  /**
   * What a successful call returns: exactly the references of the
   * discovered workspaces, each resolved against its workspace's folder.
   */
  lemma {:induction false} PlaygroundsFound(fs: FileSystem, extract: Extractor, folder: Path, p: Path)
    requires FindPlaygrounds(fs, extract, folder).Ok?
    ensures Workspaces(fs, folder).Ok?
    ensures var ws := Workspaces(fs, folder).value.All();
      p in FindPlaygrounds(fs, extract, folder).value.All() <==>
        exists i, j :: 0 <= i < |ws| && 0 <= j < |References(fs, extract, ws[i])| && ws[i] != [] &&
          p == Resolve(ws[i], References(fs, extract, ws[i])[j])
  {
    var ws := Workspaces(fs, folder).value.All();
    assert AllNonRoot(ws);
    assert FindPlaygrounds(fs, extract, folder).value.All() == LinkAll(fs, extract, ws).value;
    LinkAllFound(fs, extract, ws, p);
  }

  /** Linking succeeded: the paths are the resolved references of all the workspaces. */
  lemma {:induction false} LinkAllFound(fs: FileSystem, extract: Extractor, ws: seq<Path>, p: Path)
    requires AllNonRoot(ws) && LinkAll(fs, extract, ws).Ok?
    ensures p in LinkAll(fs, extract, ws).value <==>
      exists i, j :: 0 <= i < |ws| && 0 <= j < |References(fs, extract, ws[i])| && ws[i] != [] &&
        p == Resolve(ws[i], References(fs, extract, ws[i])[j])
  {
    if p in LinkAll(fs, extract, ws).value {
      var i :| 0 <= i < |ws| && p in WorkspacePlaygrounds(fs, extract, ws[i]).value;
      var j := WorkspaceLinks(fs, extract, ws[i], p);
    }
    if exists i, j :: 0 <= i < |ws| && 0 <= j < |References(fs, extract, ws[i])| && ws[i] != [] &&
         p == Resolve(ws[i], References(fs, extract, ws[i])[j]) {
      var i, j :| 0 <= i < |ws| && 0 <= j < |References(fs, extract, ws[i])| && ws[i] != [] &&
         p == Resolve(ws[i], References(fs, extract, ws[i])[j]);
      assert WorkspacePlaygrounds(fs, extract, ws[i]).Ok?;
      assert WorkspacePlaygrounds(fs, extract, ws[i]).value[j] == p;
    }
  }

  /** A path one workspace links is one of its references, resolved. */
  lemma {:induction false} WorkspaceLinks(fs: FileSystem, extract: Extractor, w: Path, p: Path) returns (j: nat)
    requires w != [] && WorkspacePlaygrounds(fs, extract, w).Ok?
    requires p in WorkspacePlaygrounds(fs, extract, w).value
    ensures j < |References(fs, extract, w)| && p == Resolve(w, References(fs, extract, w)[j])
  {
    var linked := WorkspacePlaygrounds(fs, extract, w).value;
    j :| 0 <= j < |linked| && linked[j] == p;
  }
}
=== FILE: nea.dfy ===
/**
 * Bow's `NonEmptyArray` (NEA): a head and a possibly empty tail, so that
 * "zero results" cannot be represented as a success value.
 */
module NonEmptyArray {
  import opened Wrappers

  datatype NEA<+T> = NEA(head: T, tail: seq<T>) {
    /** `all()`: the elements in order, head first. */
    function All(): (s: seq<T>)
      ensures |s| == 1 + |tail|
      ensures s[0] == head && s[1..] == tail
    {
      [head] + tail
    }
  }

  /** `NEA.fromArray`: `None` exactly for the empty array. */
  function FromSeq<T>(s: seq<T>): (r: Option<NEA<T>>)
    ensures r.None? <==> s == []
    ensures r.Some? ==> r.value.All() == s
  {
    if s == [] then None else Some(NEA(s[0], s[1..]))
  }
}

=== FILE: nef_compiler.dfy ===
/**
 * `Compiler.nefPlayground`: render every playground of a nef playground,
 * then build them one after the other. Each playground resolves the single
 * workspace of the content folder, compiles it for the platform of the
 * playground's first page, and compiles every page against the framework
 * that produced. Every step is fail-fast.
 *
 * The console, the renderer and the compiler system are collaborators: their
 * answers are inputs, and what is asked of them is recorded, in order, as a
 * trace of events.
 */
module NefCompiler {
  import opened Wrappers
  import opened NonEmptyArray
  import opened Paths
  import opened PlaygroundSystemErrors
  import MacPlaygroundSystem

  datatype Platform = IOS | MacOS

  /** What the compiler system reports when a compilation fails. */
  type CompilerError = string

  /** The `RenderError` cases the build raises or passes on. */
  datatype RenderError =
    | Content(info: CompilerError)
    | Workspace(workspace: Path, info: CompilerError)
    | GetWorkspace(folder: Path)
    | Rendering(info: string)   // whatever the renderer itself raised

  /** A rendered page: its escaped title, its platform and the rendered pieces of text. */
  datatype PageOutput = PageOutput(escapedTitle: string, platform: Platform, output: seq<string>)

  /** A rendered playground: where it is and its rendered pages. */
  datatype PlaygroundOutput = PlaygroundOutput(playground: Path, pages: NEA<PageOutput>)

  /** A nef playground: its root and the content folder inside it. */
  datatype NefPlaygroundURL = NefPlaygroundURL(root: Path, contentFiles: Path)

  /** One request to a collaborator. */
  datatype Event =
    | RenderPlaygrounds(folder: Path)                      // render.playgrounds(at:)
    | ListWorkspaces(folder: Path)                         // playgroundSystem.xcworkspaces(at:)
    | Info(text: string)                                   // console.print(information:)
    | Status(success: bool)                                // console.printStatus(success:)
    | CompileWorkspace(workspace: Path, platform: Platform, cached: bool)
    | CompilePage(page: string, filename: string, playground: Path, platform: Platform, frameworks: seq<Path>)

  /**
   * The collaborators' answers: what rendering a folder yields, which
   * workspaces the playground system finds in a folder, and what compiling a
   * workspace or a page yields.
   */
  datatype Environment = Environment(
    render: Path -> Result<NEA<PlaygroundOutput>, RenderError>,
    xcworkspaces: Path -> Result<NEA<Path>, PlaygroundSystemError>,
    compileWorkspace: (Path, NefPlaygroundURL, Platform, bool) -> Result<Path, CompilerError>,
    compilePage: (string, string, Path, NefPlaygroundURL, Platform, seq<Path>) -> Result<(), CompilerError>)

  /** The outcome of a step together with the events it caused. */
  datatype Run<+T> = Run(result: Result<T, RenderError>, events: seq<Event>)

  /** `lastPathComponent`: "/" names the root, and no well-formed component is "/". */
  function Name(p: Path): (n: string)
    ensures n != ""
    ensures WellFormed(p) ==> (n == "/" <==> p == [])
  {
    if p == [] then "/" else LastComponent(p)
  }

  /**
   * `joined()` over the rendered pieces of a page: joining nothing gives "",
   * joining one piece gives that piece, and `JoinedAppend` joins the rest.
   */
  function Joined(pieces: seq<string>): (s: string)
    ensures pieces == [] ==> s == ""
    ensures |pieces| == 1 ==> s == pieces[0]
  {
    if pieces == [] then "" else pieces[0] + Joined(pieces[1..])
  }

  /** Joining is concatenation: the pieces of two parts join to the two joined parts. */
  lemma {:induction false} JoinedAppend(a: seq<string>, b: seq<string>)
    ensures Joined(a + b) == Joined(a) + Joined(b)
  {
    if a != [] {
      assert (a + b)[0] == a[0];
      assert (a + b)[1..] == a[1..] + b;
      JoinedAppend(a[1..], b);
    } else {
      assert a + b == b;
    }
  }

  const WorkspacePrefix := "Building workspace '"
  const PagePrefix := "\t• Compiling page '"
  const PlaygroundPrefix := "Building playground '"

  /** The announcement of a workspace build: the prefix, then the workspace's quoted stem. */
  function WorkspaceMessage(workspace: Path): (m: string)
    ensures WorkspacePrefix <= m && m[|m| - 1] == '\''
  {
    WorkspacePrefix + Stem(Name(workspace)) + "'"
  }

  /** The announcement of a page compile, indented under its playground. */
  function PageMessage(filename: string): (m: string)
    ensures PagePrefix <= m && m[0] == '\t' && m[|m| - 1] == '\''
  {
    PagePrefix + Stem(filename) + "'"
  }

  /** The announcement of a playground build, once its pages compiled. */
  function PlaygroundMessage(playground: Path): (m: string)
    ensures PlaygroundPrefix <= m && m[|m| - 1] == '\''
  {
    PlaygroundPrefix + Stem(Name(playground)) + "'"
  }

  /** What lies between a message's prefix and its closing quote. */
  function Quoted(prefix: string, m: string): string
    requires |prefix| < |m|
  {
    m[|prefix|..|m| - 1]
  }

  /**
   * The three announcements never coincide, and each one gives back the
   * name it announces.
   */
  lemma MessagesIdentifyNames(workspace: Path, filename: string, playground: Path)
    ensures WorkspaceMessage(workspace) != PlaygroundMessage(playground)
    ensures PageMessage(filename) != WorkspaceMessage(workspace)
    ensures PageMessage(filename) != PlaygroundMessage(playground)
    ensures Quoted(WorkspacePrefix, WorkspaceMessage(workspace)) == Stem(Name(workspace))
    ensures Quoted(PagePrefix, PageMessage(filename)) == Stem(filename)
    ensures Quoted(PlaygroundPrefix, PlaygroundMessage(playground)) == Stem(Name(playground))
  {
    assert WorkspaceMessage(workspace)[9] == 'w' && PlaygroundMessage(playground)[9] == 'p';
    assert PageMessage(filename)[0] == '\t' && WorkspaceMessage(workspace)[0] == 'B' && PlaygroundMessage(playground)[0] == 'B';
  }

  /** `reportStatus`: a status line after the step, telling whether it succeeded. */
  function ReportStatus<T>(r: Result<T, RenderError>): (e: Event)
    ensures e.Status? && (e.success <==> r.Ok?)
  {
    Status(r.Ok?)
  }

  // ---------------------------------------------------------------------
  // traverse

  /**
   * `traverse` followed by `void()`: run the step on each element in order,
   * stopping at the first failure, whose error is the result.
   */
  function Traverse<A>(step: A -> Run<()>, xs: seq<A>): (r: Run<()>)
    ensures xs == [] ==> r == Run(Ok(()), [])
  {
    if xs == [] then Run(Ok(()), [])
    else
      var first := step(xs[0]);
      if first.result.Err? then first
      else
        var rest := Traverse(step, xs[1..]);
        Run(rest.result, first.events + rest.events)
  }

  /** The traversal succeeds exactly when every step does. */
  lemma {:induction false} TraverseOk<A>(step: A -> Run<()>, xs: seq<A>)
    ensures Traverse(step, xs).result.Ok? <==> forall i :: 0 <= i < |xs| ==> step(xs[i]).result.Ok?
  {
    if xs != [] {
      TraverseOk(step, xs[1..]);
      assert forall i :: 1 <= i < |xs| ==> xs[i] == xs[1..][i - 1];
    }
  }

  /** Steps run in order: a step added at the end runs only if all before succeeded. */
  lemma {:induction false} TraverseSnoc<A>(step: A -> Run<()>, xs: seq<A>, x: A)
    ensures var before := Traverse(step, xs);
      Traverse(step, xs + [x]) ==
        if before.result.Err? then before else Run(step(x).result, before.events + step(x).events)
  {
    if xs == [] {
      assert xs + [x] == [x];
      assert [x][1..] == [];
      assert step(x).events + [] == [] + step(x).events == step(x).events;
      match step(x).result
      case Ok(u) =>
        var unit: () := u;
        assert unit == ();
      case Err(_) =>
    } else {
      assert (xs + [x])[0] == xs[0];
      assert (xs + [x])[1..] == xs[1..] + [x];
      TraverseSnoc(step, xs[1..], x);
      var first := step(xs[0]);
      var rest := Traverse(step, xs[1..]);
      if first.result.Ok? && rest.result.Ok? {
        assert first.events + (rest.events + step(x).events) == (first.events + rest.events) + step(x).events;
      }
    }
  }

  /** Nothing after the first failing step runs, and its error is the result. */
  lemma {:induction false} TraverseStopsAtFailure<A>(step: A -> Run<()>, xs: seq<A>, k: nat)
    requires k < |xs|
    requires forall i :: 0 <= i < k ==> step(xs[i]).result.Ok?
    requires step(xs[k]).result.Err?
    ensures Traverse(step, xs) == Traverse(step, xs[..k + 1])
    ensures Traverse(step, xs).result == step(xs[k]).result
  {
    if k > 0 {
      assert step(xs[0]).result.Ok?;
      assert forall i :: 0 <= i < k - 1 ==> xs[1..][i] == xs[i + 1];
      assert xs[1..][k - 1] == xs[k];
      TraverseStopsAtFailure(step, xs[1..], k - 1);
      assert xs[..k + 1][1..] == xs[1..][..k];
      assert xs[..k + 1][0] == xs[0];
    } else {
      assert xs[..1][0] == xs[0];
    }
  }

  /** The events of a traversal are those of its steps, one after the other. */
  lemma {:induction false} TraverseEvents<A>(step: A -> Run<()>, xs: seq<A>, e: Event)
    ensures e in Traverse(step, xs).events ==> exists i :: 0 <= i < |xs| && e in step(xs[i]).events
  {
    if xs != [] && step(xs[0]).result.Ok? {
      TraverseEvents(step, xs[1..], e);
      if e in Traverse(step, xs[1..]).events {
        var i :| 0 <= i < |xs[1..]| && e in step(xs[1..][i]).events;
        assert xs[1..][i] == xs[i + 1];
      }
    }
  }

  // ---------------------------------------------------------------------
  // xcworkspace(atFolder:)

  /** The one workspace of `folder`; none, or more than one, is a `.getWorkspace` error. */
  function XcWorkspace(env: Environment, folder: Path): (r: Run<Path>)
    ensures r.events == [ListWorkspaces(folder)]
    ensures var found := env.xcworkspaces(folder);
      && (r.result.Ok? <==> found.Ok? && |found.value.All()| == 1)
      && (r.result.Ok? ==> found.value.All() == [r.result.value])
      && (r.result.Err? ==> r.result.error == GetWorkspace(folder))
  {
    var result :=
      match env.xcworkspaces(folder)
      case Ok(ws) => if |ws.All()| == 1 then Ok(ws.head) else Err(GetWorkspace(folder))
      case Err(_) => Err(GetWorkspace(folder));
    Run(result, [ListWorkspaces(folder)])
  }

  /**
   * With the Mac playground system looking at `fs`, a resolved workspace is
   * the only kept candidate the folder's enumeration yields.
   */
  lemma {:induction false} ResolvedWorkspaceIsUnique(env: Environment, fs: MacPlaygroundSystem.FileSystem, folder: Path)
    requires env.xcworkspaces(folder) == MacPlaygroundSystem.Workspaces(fs, folder)
    requires XcWorkspace(env, folder).result.Ok?
    ensures var w := XcWorkspace(env, folder).result.value;
      && folder in fs.enumerations
      && MacPlaygroundSystem.KeptCandidates(fs, fs.enumerations[folder]) == [w]
      && w != [] && w in fs.existing && !IsDependency(w)
  {
    var w := XcWorkspace(env, folder).result.value;
    MacPlaygroundSystem.KeptCandidatesMembers(fs, fs.enumerations[folder], w);
  }

  // ---------------------------------------------------------------------
  // compile(workspace:atNefPlayground:platform:cached:)

  /** Compile the workspace; its one framework is the pages' only dependency. */
  function CompileWorkspaceStep(env: Environment, nef: NefPlaygroundURL, workspace: Path, platform: Platform, cached: bool): (r: Run<seq<Path>>)
    ensures var compiled := env.compileWorkspace(workspace, nef, platform, cached);
      && (r.result.Ok? <==> compiled.Ok?)
      && (r.result.Ok? ==> r.result.value == [compiled.value])
      && (r.result.Err? ==> r.result.error == Workspace(workspace, compiled.error))
      && r.events == [Info(WorkspaceMessage(workspace)), CompileWorkspace(workspace, platform, cached), Status(compiled.Ok?)]
  {
    var result :=
      match env.compileWorkspace(workspace, nef, platform, cached)
      case Ok(dependency) => Ok([dependency])
      case Err(e) => Err(Workspace(workspace, e));
    Run(result, [Info(WorkspaceMessage(workspace)), CompileWorkspace(workspace, platform, cached), ReportStatus(result)])
  }

  // ---------------------------------------------------------------------
  // compile(page:filename:inPlayground:atNefPlayground:platform:frameworks:)

  /** Announce the page, compile its joined rendered text, report the status. */
  function CompilePageStep(env: Environment, nef: NefPlaygroundURL, page: PageOutput, playground: Path, frameworks: seq<Path>): (r: Run<()>)
    ensures var code := Joined(page.output);
      var compiled := env.compilePage(code, page.escapedTitle, playground, nef, page.platform, frameworks);
      && (r.result.Ok? <==> compiled.Ok?)
      && (r.result.Err? ==> r.result.error == Content(compiled.error))
      && r.events == [Info(PageMessage(page.escapedTitle)),
                      CompilePage(code, page.escapedTitle, playground, page.platform, frameworks),
                      Status(compiled.Ok?)]
  {
    var code := Joined(page.output);
    var result :=
      match env.compilePage(code, page.escapedTitle, playground, nef, page.platform, frameworks)
      case Ok(_) => Ok(())
      case Err(e) => Err(Content(e));
    Run(result, [Info(PageMessage(page.escapedTitle)),
                 CompilePage(code, page.escapedTitle, playground, page.platform, frameworks),
                 ReportStatus(result)])
  }

  /** The page step of the traversal. */
  function PageStep(env: Environment, nef: NefPlaygroundURL, playground: Path, frameworks: seq<Path>): PageOutput -> Run<()> {
    page => CompilePageStep(env, nef, page, playground, frameworks)
  }

  /** `traverse` over the pages: it succeeds exactly when every page compiles. */
  function CompilePageList(env: Environment, nef: NefPlaygroundURL, pages: seq<PageOutput>, playground: Path, frameworks: seq<Path>): (r: Run<()>)
    ensures r.result.Ok? <==> forall i :: 0 <= i < |pages| ==> CompilePageStep(env, nef, pages[i], playground, frameworks).result.Ok?
  {
    var step := PageStep(env, nef, playground, frameworks);
    TraverseOk(step, pages);
    Traverse(step, pages)
  }

  /**
   * `compile(pages:inPlayground:atNefPlayground:frameworks:)`: the pages,
   * then "Building playground '<name>'" and a success status.
   */
  function CompilePages(env: Environment, nef: NefPlaygroundURL, pages: NEA<PageOutput>, playground: Path, frameworks: seq<Path>): (r: Run<()>)
    ensures var compiled := CompilePageList(env, nef, pages.All(), playground, frameworks);
      && r.result == compiled.result
      && r.events == compiled.events + (if compiled.result.Ok? then [Info(PlaygroundMessage(playground)), Status(true)] else [])
  {
    var compiled := CompilePageList(env, nef, pages.All(), playground, frameworks);
    if compiled.result.Err? then compiled
    else Run(compiled.result, compiled.events + [Info(PlaygroundMessage(playground)), Status(true)])
  }

  // ---------------------------------------------------------------------
  // buildPages / buildPlaygrounds / nefPlayground

  /** Build one rendered playground: resolve the workspace, compile it, compile the pages. */
  function BuildPages(env: Environment, nef: NefPlaygroundURL, cached: bool, rendered: PlaygroundOutput): (r: Run<()>)
    ensures |r.events| >= 1 && r.events[0] == ListWorkspaces(nef.contentFiles)
  {
    var resolved := XcWorkspace(env, nef.contentFiles);
    match resolved.result
    case Err(e) => Run(Err(e), resolved.events)
    case Ok(workspace) =>
      var frameworks := CompileWorkspaceStep(env, nef, workspace, rendered.pages.head.platform, cached);
      match frameworks.result
      case Err(e) => Run(Err(e), resolved.events + frameworks.events)
      case Ok(dependencies) =>
        var pages := CompilePages(env, nef, rendered.pages, rendered.playground, dependencies);
        Run(pages.result, resolved.events + frameworks.events + pages.events)
  }

  /** The playground step of the traversal. */
  function PlaygroundStep(env: Environment, nef: NefPlaygroundURL, cached: bool): PlaygroundOutput -> Run<()> {
    rendered => BuildPages(env, nef, cached, rendered)
  }

  /** `traverse` over the rendered playgrounds: it succeeds exactly when every playground builds. */
  function BuildPlaygrounds(env: Environment, nef: NefPlaygroundURL, cached: bool, playgrounds: seq<PlaygroundOutput>): (r: Run<()>)
    ensures r.result.Ok? <==> forall i :: 0 <= i < |playgrounds| ==> BuildPages(env, nef, cached, playgrounds[i]).result.Ok?
  {
    var step := PlaygroundStep(env, nef, cached);
    TraverseOk(step, playgrounds);
    Traverse(step, playgrounds)
  }

  /** `nefPlayground(_:cached:)`: render the content folder, then build what was rendered. */
  function BuildNefPlayground(env: Environment, nef: NefPlaygroundURL, cached: bool): (r: Run<()>)
    ensures |r.events| >= 1 && r.events[0] == RenderPlaygrounds(nef.contentFiles)
    ensures env.render(nef.contentFiles).Err? ==>
      r.result == Err(env.render(nef.contentFiles).error) && r.events == [RenderPlaygrounds(nef.contentFiles)]
    ensures env.render(nef.contentFiles).Ok? ==>
      r == Run(BuildPlaygrounds(env, nef, cached, env.render(nef.contentFiles).value.All()).result,
               [RenderPlaygrounds(nef.contentFiles)] + BuildPlaygrounds(env, nef, cached, env.render(nef.contentFiles).value.All()).events)
  {
    match env.render(nef.contentFiles)
    case Err(e) => Run(Err(e), [RenderPlaygrounds(nef.contentFiles)])
    case Ok(rendered) =>
      var built := BuildPlaygrounds(env, nef, cached, rendered.All());
      Run(built.result, [RenderPlaygrounds(nef.contentFiles)] + built.events)
  }

  /** `platform(in:)`: the platform of the first page of the first playground. */
  function PlatformIn(playgrounds: NEA<PlaygroundOutput>): (p: Platform)
    ensures p == playgrounds.All()[0].pages.All()[0].platform
  {
    playgrounds.head.pages.head.platform
  }

  // ---------------------------------------------------------------------
  // Properties of the build

  /**
   * Every page compile comes after a workspace compile that reported
   * success, with no other workspace compile in between, and is given the
   * one framework that compile produced.
   */
  predicate PagesAfterWorkspace(env: Environment, nef: NefPlaygroundURL, events: seq<Event>) {
    forall j :: 0 <= j < |events| && events[j].CompilePage? ==> exists i :: 0 <= i < j && FedBy(env, nef, events, i, j)
  }

  /**
   * The page compile at `j` is fed by the workspace compile at `i`: that
   * compile reported success right after it, it produced the page's
   * framework, and no workspace compile comes between the two.
   */
  predicate FedBy(env: Environment, nef: NefPlaygroundURL, events: seq<Event>, i: int, j: int) {
    && 0 <= i < j - 1 && j < |events|
    && CompiledFor(env, nef, events[i], events[j])
    && events[i + 1] == Status(true)
    && NoWorkspaceCompileBetween(events, i, j)
  }

  /** No workspace compile strictly between positions `i` and `j`. */
  predicate NoWorkspaceCompileBetween(events: seq<Event>, i: int, j: int)
    requires 0 <= i <= j <= |events|
  {
    forall k :: i < k < j ==> !events[k].CompileWorkspace?
  }

  /** `page` compiles against the framework the successful workspace compile `ws` produced. */
  predicate CompiledFor(env: Environment, nef: NefPlaygroundURL, ws: Event, page: Event) {
    && ws.CompileWorkspace? && page.CompilePage?
    && env.compileWorkspace(ws.workspace, nef, ws.platform, ws.cached).Ok?
    && page.frameworks == [env.compileWorkspace(ws.workspace, nef, ws.platform, ws.cached).value]
  }

  lemma {:induction false} PagesAfterWorkspaceAppend(env: Environment, nef: NefPlaygroundURL, a: seq<Event>, b: seq<Event>)
    requires PagesAfterWorkspace(env, nef, a) && PagesAfterWorkspace(env, nef, b)
    ensures PagesAfterWorkspace(env, nef, a + b)
  {
    var ab := a + b;
    forall j | 0 <= j < |ab| && ab[j].CompilePage?
      ensures exists i :: 0 <= i < j && FedBy(env, nef, ab, i, j)
    {
      if j < |a| {
        assert a[j] == ab[j];
        var i :| 0 <= i < j && FedBy(env, nef, a, i, j);
        assert ab[i] == a[i] && ab[i + 1] == a[i + 1];
        assert forall k :: i < k < j ==> ab[k] == a[k];
        assert FedBy(env, nef, ab, i, j);
      } else {
        var j' := j - |a|;
        assert b[j'] == ab[j];
        var i :| 0 <= i < j' && FedBy(env, nef, b, i, j');
        assert ab[i + |a|] == b[i] && ab[i + |a| + 1] == b[i + 1];
        assert forall k :: i + |a| < k < j ==> ab[k] == b[k - |a|];
        assert FedBy(env, nef, ab, i + |a|, j);
      }
    }
  }

  /**
   * The events of compiling pages: page announcements, page compiles for
   * this playground against these frameworks, and statuses.
   */
  ghost predicate PageEvents(events: seq<Event>, playground: Path, frameworks: seq<Path>) {
    forall e :: e in events ==>
      || (e.Info? && exists title :: e.text == PageMessage(title))
      || (e.CompilePage? && e.playground == playground && e.frameworks == frameworks)
      || e.Status?
  }

  lemma {:induction false} CompilePageListEvents(env: Environment, nef: NefPlaygroundURL, pages: seq<PageOutput>, playground: Path, frameworks: seq<Path>)
    ensures PageEvents(CompilePageList(env, nef, pages, playground, frameworks).events, playground, frameworks)
  {
    var step := PageStep(env, nef, playground, frameworks);
    forall e | e in Traverse(step, pages).events
      ensures || (e.Info? && exists title :: e.text == PageMessage(title))
              || (e.CompilePage? && e.playground == playground && e.frameworks == frameworks)
              || e.Status?
    {
      TraverseEvents(step, pages, e);
      var i :| 0 <= i < |pages| && e in step(pages[i]).events;
      CompilePageStepEvents(env, nef, pages[i], playground, frameworks);
    }
  }

  /** One page's events are page events. */
  lemma CompilePageStepEvents(env: Environment, nef: NefPlaygroundURL, page: PageOutput, playground: Path, frameworks: seq<Path>)
    ensures PageEvents(CompilePageStep(env, nef, page, playground, frameworks).events, playground, frameworks)
  {
    var events := CompilePageStep(env, nef, page, playground, frameworks).events;
    assert events[0].text == PageMessage(page.escapedTitle);
  }

  /**
   * "Building playground '<name>'" is printed, and then only as the last
   * but one event followed by a success status, exactly when every page
   * compiled.
   */
  lemma {:induction false} PlaygroundAnnouncedOnlyOnSuccess(env: Environment, nef: NefPlaygroundURL, pages: NEA<PageOutput>, playground: Path, frameworks: seq<Path>)
    ensures var r := CompilePages(env, nef, pages, playground, frameworks);
      && (Info(PlaygroundMessage(playground)) in r.events <==> r.result.Ok?)
      && (r.result.Ok? <==> forall i :: 0 <= i < |pages.All()| ==> CompilePageStep(env, nef, pages.All()[i], playground, frameworks).result.Ok?)
      && (r.result.Ok? ==> r.events[|r.events| - 2..] == [Info(PlaygroundMessage(playground)), Status(true)])
  {
    var compiled := CompilePageList(env, nef, pages.All(), playground, frameworks);
    var announced := Info(PlaygroundMessage(playground));
    assert announced !in compiled.events by {
      CompilePageListEvents(env, nef, pages.All(), playground, frameworks);
      forall title ensures PageMessage(title) != PlaygroundMessage(playground) {
        MessagesIdentifyNames([], title, playground);
      }
    }
    if compiled.result.Ok? {
      var r := CompilePages(env, nef, pages, playground, frameworks);
      assert r.events == compiled.events + [announced, Status(true)];
      assert r.events[|r.events| - 2] == announced;
    }
  }

  /**
   * Compiling a playground's pages neither looks up nor compiles a
   * workspace, and every page compile is for this playground against these
   * frameworks.
   */
  lemma {:induction false} CompilePagesEvents(env: Environment, nef: NefPlaygroundURL, pages: NEA<PageOutput>, playground: Path, frameworks: seq<Path>)
    ensures forall e :: e in CompilePages(env, nef, pages, playground, frameworks).events ==>
      && !e.ListWorkspaces? && !e.CompileWorkspace? && !e.RenderPlaygrounds?
      && (e.CompilePage? ==> e.playground == playground && e.frameworks == frameworks)
  {
    var compiled := CompilePageList(env, nef, pages.All(), playground, frameworks);
    var tail: seq<Event> := if compiled.result.Ok? then [Info(PlaygroundMessage(playground)), Status(true)] else [];
    assert CompilePages(env, nef, pages, playground, frameworks).events == compiled.events + tail;
    forall e | e in compiled.events + tail
      ensures && !e.ListWorkspaces? && !e.CompileWorkspace? && !e.RenderPlaygrounds?
              && (e.CompilePage? ==> e.playground == playground && e.frameworks == frameworks)
    {
      if e in compiled.events {
        CompilePageListEvents(env, nef, pages.All(), playground, frameworks);
      } else {
        assert e in tail;
      }
    }
  }

  /**
   * One playground's events: the workspace lookup comes first and happens
   * once; the workspace is announced and compiled once, for the platform of
   * the playground's first page; every page compile follows its successful
   * compile and uses its one framework.
   */
  lemma {:induction false} BuildPagesOrder(env: Environment, nef: NefPlaygroundURL, cached: bool, rendered: PlaygroundOutput)
    ensures var ev := BuildPages(env, nef, cached, rendered).events;
      && ev[0] == ListWorkspaces(nef.contentFiles)
      && (forall j :: 0 < j < |ev| ==> !ev[j].ListWorkspaces?)
      && (forall j :: 0 <= j < |ev| && ev[j].CompileWorkspace? ==>
            && j == 2
            && ev[1] == Info(WorkspaceMessage(ev[2].workspace))
            && ev[2].platform == rendered.pages.head.platform
            && ev[2].cached == cached)
      && PagesAfterWorkspace(env, nef, ev)
      && (forall j :: 0 <= j < |ev| && ev[j].CompilePage? ==>
            && ev[j].playground == rendered.playground
            && env.compileWorkspace(ev[2].workspace, nef, ev[2].platform, cached).Ok?
            && ev[j].frameworks == [env.compileWorkspace(ev[2].workspace, nef, ev[2].platform, cached).value])
  {
    var cf := nef.contentFiles;
    var resolved := XcWorkspace(env, cf).result;
    var ev := BuildPages(env, nef, cached, rendered).events;
    BuildPagesShape(env, nef, cached, rendered);
    if resolved.Ok? {
      var platform := rendered.pages.head.platform;
      var compiled := env.compileWorkspace(resolved.value, nef, platform, cached);
      var head := [ListWorkspaces(cf), Info(WorkspaceMessage(resolved.value)), CompileWorkspace(resolved.value, platform, cached), Status(compiled.Ok?)];
      if compiled.Ok? {
        var pageEvents := CompilePages(env, nef, rendered.pages, rendered.playground, [compiled.value]).events;
        assert ev == head + pageEvents;
        CompilePagesEvents(env, nef, rendered.pages, rendered.playground, [compiled.value]);
        TraceOrder(env, nef, ev, cf, resolved.value, platform, cached, true, pageEvents, rendered.playground, [compiled.value]);
      } else {
        assert ev == head + [];
        TraceOrder(env, nef, ev, cf, resolved.value, platform, cached, false, [], rendered.playground, []);
      }
    } else {
      assert ev == [ListWorkspaces(cf)];
    }
  }

  /**
   * One playground's events, case by case: the lookup; then, for a unique
   * workspace, its announcement, compile and status; then, if it compiled,
   * the events of its pages.
   */
  lemma {:induction false} BuildPagesShape(env: Environment, nef: NefPlaygroundURL, cached: bool, rendered: PlaygroundOutput)
    ensures var ev := BuildPages(env, nef, cached, rendered).events;
      var resolved := XcWorkspace(env, nef.contentFiles).result;
      var platform := rendered.pages.head.platform;
      && (resolved.Err? ==> ev == [ListWorkspaces(nef.contentFiles)])
      && (resolved.Ok? ==>
            var compiled := env.compileWorkspace(resolved.value, nef, platform, cached);
            ev == [ListWorkspaces(nef.contentFiles), Info(WorkspaceMessage(resolved.value)),
                   CompileWorkspace(resolved.value, platform, cached), Status(compiled.Ok?)]
                  + (if compiled.Ok? then CompilePages(env, nef, rendered.pages, rendered.playground, [compiled.value]).events else []))
  {
    var resolved := XcWorkspace(env, nef.contentFiles).result;
    if resolved.Ok? {
      var platform := rendered.pages.head.platform;
      var steps := CompileWorkspaceStep(env, nef, resolved.value, platform, cached);
      assert [ListWorkspaces(nef.contentFiles)] + steps.events == [ListWorkspaces(nef.contentFiles), Info(WorkspaceMessage(resolved.value)),
        CompileWorkspace(resolved.value, platform, cached), Status(steps.result.Ok?)];
    }
  }

  /**
   * The order facts of a trace made of a lookup, a workspace announcement,
   * its compile and status, and then (only after a success) events that
   * neither look up nor compile a workspace.
   */
  lemma {:induction false} TraceOrder(env: Environment, nef: NefPlaygroundURL, ev: seq<Event>, folder: Path, workspace: Path,
                                      platform: Platform, cached: bool, compiled: bool,
                                      pageEvents: seq<Event>, playground: Path, frameworks: seq<Path>)
    requires ev == [ListWorkspaces(folder), Info(WorkspaceMessage(workspace)), CompileWorkspace(workspace, platform, cached), Status(compiled)] + pageEvents
    requires !compiled ==> pageEvents == []
    requires compiled ==>
      env.compileWorkspace(workspace, nef, platform, cached).Ok? &&
      frameworks == [env.compileWorkspace(workspace, nef, platform, cached).value]
    requires forall e :: e in pageEvents ==>
      && !e.ListWorkspaces? && !e.CompileWorkspace?
      && (e.CompilePage? ==> e.playground == playground && e.frameworks == frameworks)
    ensures forall j :: 0 < j < |ev| ==> !ev[j].ListWorkspaces?
    ensures forall j :: 0 <= j < |ev| && ev[j].CompileWorkspace? ==> j == 2
    ensures PagesAfterWorkspace(env, nef, ev)
    ensures forall j :: 0 <= j < |ev| && ev[j].CompilePage? ==>
      compiled && ev[j].playground == playground && ev[j].frameworks == frameworks
  {
    forall j | 4 <= j < |ev|
      ensures !ev[j].ListWorkspaces? && !ev[j].CompileWorkspace?
      ensures ev[j].CompilePage? ==> compiled && ev[j].playground == playground && ev[j].frameworks == frameworks
    {
      assert ev[j] == pageEvents[j - 4];
      assert ev[j] in pageEvents;
    }
    assert PagesAfterWorkspace(env, nef, ev) by {
      forall j | 0 <= j < |ev| && ev[j].CompilePage?
        ensures exists i :: 0 <= i < j && FedBy(env, nef, ev, i, j)
      {
        assert ev[j] in pageEvents;
        assert FedBy(env, nef, ev, 2, j);
      }
    }
  }

  /** A traversal of steps that each keep page compiles after a workspace compile keeps them too. */
  lemma {:induction false} TraversePagesAfterWorkspace<A>(env: Environment, nef: NefPlaygroundURL, step: A -> Run<()>, xs: seq<A>)
    requires forall i :: 0 <= i < |xs| ==> PagesAfterWorkspace(env, nef, step(xs[i]).events)
    ensures PagesAfterWorkspace(env, nef, Traverse(step, xs).events)
  {
    if xs != [] && step(xs[0]).result.Ok? {
      assert forall i :: 0 <= i < |xs[1..]| ==> xs[1..][i] == xs[i + 1];
      TraversePagesAfterWorkspace(env, nef, step, xs[1..]);
      PagesAfterWorkspaceAppend(env, nef, step(xs[0]).events, Traverse(step, xs[1..]).events);
    }
  }

  /**
   * Across the whole build, every page is compiled after its own playground's
   * workspace compile succeeded, against the framework that compile produced.
   */
  lemma {:induction false} BuildPlaygroundsPagesAfterWorkspace(env: Environment, nef: NefPlaygroundURL, cached: bool, playgrounds: seq<PlaygroundOutput>)
    ensures PagesAfterWorkspace(env, nef, BuildPlaygrounds(env, nef, cached, playgrounds).events)
  {
    var step := PlaygroundStep(env, nef, cached);
    forall i | 0 <= i < |playgrounds| ensures PagesAfterWorkspace(env, nef, step(playgrounds[i]).events) {
      BuildPagesOrder(env, nef, cached, playgrounds[i]);
    }
    TraversePagesAfterWorkspace(env, nef, step, playgrounds);
  }

  /**
   * The whole run: a failed render compiles nothing; otherwise every page
   * is compiled after its workspace compile succeeded, with no other
   * workspace compile in between, against the framework it produced.
   */
  lemma {:induction false} NefPlaygroundOrdering(env: Environment, nef: NefPlaygroundURL, cached: bool)
    ensures var r := BuildNefPlayground(env, nef, cached);
      && (env.render(nef.contentFiles).Err? ==>
            forall e :: e in r.events ==> !e.CompileWorkspace? && !e.CompilePage?)
      && PagesAfterWorkspace(env, nef, r.events)
  {
    if env.render(nef.contentFiles).Ok? {
      var built := BuildPlaygrounds(env, nef, cached, env.render(nef.contentFiles).value.All());
      BuildPlaygroundsPagesAfterWorkspace(env, nef, cached, env.render(nef.contentFiles).value.All());
      PagesAfterWorkspaceAppend(env, nef, [RenderPlaygrounds(nef.contentFiles)], built.events);
    }
  }

  /**
   * The first playground that fails stops the build: nothing after it runs
   * and its error is the build's.
   */
  lemma {:induction false} PlaygroundsStopAtFirstFailure(env: Environment, nef: NefPlaygroundURL, cached: bool, playgrounds: seq<PlaygroundOutput>, k: nat)
    requires k < |playgrounds|
    requires forall i :: 0 <= i < k ==> BuildPages(env, nef, cached, playgrounds[i]).result.Ok?
    requires BuildPages(env, nef, cached, playgrounds[k]).result.Err?
    ensures BuildPlaygrounds(env, nef, cached, playgrounds) == BuildPlaygrounds(env, nef, cached, playgrounds[..k + 1])
    ensures BuildPlaygrounds(env, nef, cached, playgrounds).result == BuildPages(env, nef, cached, playgrounds[k]).result
  {
    TraverseStopsAtFailure(PlaygroundStep(env, nef, cached), playgrounds, k);
  }

  /**
   * The first page that fails stops the playground: no later page is
   * compiled, its `.content` error is the result, and the playground is not
   * announced.
   */
  lemma {:induction false} PagesStopAtFirstFailure(env: Environment, nef: NefPlaygroundURL, pages: NEA<PageOutput>, playground: Path, frameworks: seq<Path>, k: nat)
    requires k < |pages.All()|
    requires forall i :: 0 <= i < k ==> CompilePageStep(env, nef, pages.All()[i], playground, frameworks).result.Ok?
    requires CompilePageStep(env, nef, pages.All()[k], playground, frameworks).result.Err?
    ensures var r := CompilePages(env, nef, pages, playground, frameworks);
      && r == CompilePageList(env, nef, pages.All()[..k + 1], playground, frameworks)
      && r.result == CompilePageStep(env, nef, pages.All()[k], playground, frameworks).result
  {
    TraverseStopsAtFailure(PageStep(env, nef, playground, frameworks), pages.All(), k);
  }

  /**
   * The first workspace compile of a run is for `platform(in:)` of what was
   * rendered: the platform of the first page of the first playground.
   */
  lemma {:induction false} FirstWorkspaceCompileUsesPlatformIn(env: Environment, nef: NefPlaygroundURL, cached: bool)
    requires env.render(nef.contentFiles).Ok?
    requires XcWorkspace(env, nef.contentFiles).result.Ok?
    ensures var r := BuildNefPlayground(env, nef, cached);
      |r.events| > 3 &&
      r.events[3] == CompileWorkspace(XcWorkspace(env, nef.contentFiles).result.value,
                                      PlatformIn(env.render(nef.contentFiles).value), cached)
  {
    var rendered := env.render(nef.contentFiles).value;
    var first := BuildPages(env, nef, cached, rendered.head);
    assert rendered.All()[0] == rendered.head;
    assert first.events[..3] == [ListWorkspaces(nef.contentFiles), Info(WorkspaceMessage(XcWorkspace(env, nef.contentFiles).result.value)),
      CompileWorkspace(XcWorkspace(env, nef.contentFiles).result.value, rendered.head.pages.head.platform, cached)];
  }

  /**
   * A playground with one page, a unique workspace and successful compiles:
   * the whole console trace of building it.
   */
  lemma {:induction false} OnePageBuild(env: Environment, nef: NefPlaygroundURL, cached: bool, rendered: PlaygroundOutput, page: PageOutput, workspace: Path, framework: Path)
    requires rendered.pages == NEA(page, [])
    requires env.xcworkspaces(nef.contentFiles) == Ok(NEA(workspace, []))
    requires env.compileWorkspace(workspace, nef, page.platform, cached) == Ok(framework)
    requires env.compilePage(Joined(page.output), page.escapedTitle, rendered.playground, nef, page.platform, [framework]) == Ok(())
    ensures BuildPages(env, nef, cached, rendered) == Run(Ok(()),
      [ListWorkspaces(nef.contentFiles),
       Info(WorkspaceMessage(workspace)),
       CompileWorkspace(workspace, page.platform, cached),
       Status(true)] +
      [Info(PageMessage(page.escapedTitle)),
       CompilePage(Joined(page.output), page.escapedTitle, rendered.playground, page.platform, [framework]),
       Status(true),
       Info(PlaygroundMessage(rendered.playground)),
       Status(true)])
  {
    var pages := CompilePages(env, nef, rendered.pages, rendered.playground, [framework]);
    assert pages == Run(Ok(()),
      [Info(PageMessage(page.escapedTitle)),
       CompilePage(Joined(page.output), page.escapedTitle, rendered.playground, page.platform, [framework]),
       Status(true),
       Info(PlaygroundMessage(rendered.playground)),
       Status(true)]) by {
      OnePageCompiles(env, nef, page, rendered.playground, [framework]);
    }
    BuildPagesCompiled(env, nef, cached, rendered, workspace);
  }

  /**
   * The whole run for a content folder that renders one playground of one
   * page: render, list, announce and compile the workspace, announce and
   * compile the page, announce the playground, each followed by its status.
   */
  lemma {:induction false} SinglePageRun(env: Environment, nef: NefPlaygroundURL, cached: bool, rendered: PlaygroundOutput, page: PageOutput, workspace: Path, framework: Path)
    requires env.render(nef.contentFiles) == Ok(NEA(rendered, []))
    requires rendered.pages == NEA(page, [])
    requires env.xcworkspaces(nef.contentFiles) == Ok(NEA(workspace, []))
    requires env.compileWorkspace(workspace, nef, page.platform, cached) == Ok(framework)
    requires env.compilePage(Joined(page.output), page.escapedTitle, rendered.playground, nef, page.platform, [framework]) == Ok(())
    ensures BuildNefPlayground(env, nef, cached) == Run(Ok(()),
      [RenderPlaygrounds(nef.contentFiles)] +
      [ListWorkspaces(nef.contentFiles),
       Info(WorkspaceMessage(workspace)),
       CompileWorkspace(workspace, page.platform, cached),
       Status(true)] +
      [Info(PageMessage(page.escapedTitle)),
       CompilePage(Joined(page.output), page.escapedTitle, rendered.playground, page.platform, [framework]),
       Status(true),
       Info(PlaygroundMessage(rendered.playground)),
       Status(true)])
  {
    var built :=
      [ListWorkspaces(nef.contentFiles),
       Info(WorkspaceMessage(workspace)),
       CompileWorkspace(workspace, page.platform, cached),
       Status(true)] +
      [Info(PageMessage(page.escapedTitle)),
       CompilePage(Joined(page.output), page.escapedTitle, rendered.playground, page.platform, [framework]),
       Status(true),
       Info(PlaygroundMessage(rendered.playground)),
       Status(true)];
    var playgrounds := BuildPlaygrounds(env, nef, cached, env.render(nef.contentFiles).value.All());
    assert playgrounds == Run(Ok(()), built) by {
      assert BuildPages(env, nef, cached, rendered) == Run(Ok(()), built) by {
        OnePageBuild(env, nef, cached, rendered, page, workspace, framework);
      }
      OnePlaygroundBuilds(env, nef, cached, rendered);
    }
    assert [RenderPlaygrounds(nef.contentFiles)] + built == [RenderPlaygrounds(nef.contentFiles)] +
      [ListWorkspaces(nef.contentFiles),
       Info(WorkspaceMessage(workspace)),
       CompileWorkspace(workspace, page.platform, cached),
       Status(true)] +
      [Info(PageMessage(page.escapedTitle)),
       CompilePage(Joined(page.output), page.escapedTitle, rendered.playground, page.platform, [framework]),
       Status(true),
       Info(PlaygroundMessage(rendered.playground)),
       Status(true)];
  }

  /** With a unique workspace that compiles, a playground's events are the workspace's, then its pages'. */
  lemma {:induction false} BuildPagesCompiled(env: Environment, nef: NefPlaygroundURL, cached: bool, rendered: PlaygroundOutput, workspace: Path)
    requires env.xcworkspaces(nef.contentFiles) == Ok(NEA(workspace, []))
    requires env.compileWorkspace(workspace, nef, rendered.pages.head.platform, cached).Ok?
    ensures var platform := rendered.pages.head.platform;
      var framework := env.compileWorkspace(workspace, nef, platform, cached).value;
      var pages := CompilePages(env, nef, rendered.pages, rendered.playground, [framework]);
      BuildPages(env, nef, cached, rendered) == Run(pages.result,
        [ListWorkspaces(nef.contentFiles), Info(WorkspaceMessage(workspace)), CompileWorkspace(workspace, platform, cached), Status(true)]
        + pages.events)
  {
    assert XcWorkspace(env, nef.contentFiles).result == Ok(workspace) by {
      assert NEA(workspace, []).All() == [workspace];
    }
    BuildPagesShape(env, nef, cached, rendered);
  }

  /** A single compiled page: its three events, then the playground's announcement. */
  lemma {:induction false} OnePageCompiles(env: Environment, nef: NefPlaygroundURL, page: PageOutput, playground: Path, frameworks: seq<Path>)
    requires env.compilePage(Joined(page.output), page.escapedTitle, playground, nef, page.platform, frameworks) == Ok(())
    ensures CompilePages(env, nef, NEA(page, []), playground, frameworks) == Run(Ok(()), [
      Info(PageMessage(page.escapedTitle)),
      CompilePage(Joined(page.output), page.escapedTitle, playground, page.platform, frameworks),
      Status(true),
      Info(PlaygroundMessage(playground)),
      Status(true)])
  {
    assert NEA(page, []).All() == [page];
    TraverseSnoc(PageStep(env, nef, playground, frameworks), [], page);
    assert [] + [page] == [page];
  }

  /** A single successful playground build is the whole traversal. */
  lemma {:induction false} OnePlaygroundBuilds(env: Environment, nef: NefPlaygroundURL, cached: bool, rendered: PlaygroundOutput)
    requires BuildPages(env, nef, cached, rendered).result.Ok?
    ensures BuildPlaygrounds(env, nef, cached, NEA(rendered, []).All()) == BuildPages(env, nef, cached, rendered)
  {
    assert NEA(rendered, []).All() == [rendered];
    TraverseSnoc(PlaygroundStep(env, nef, cached), [], rendered);
    assert [] + [rendered] == [rendered];
  }
}
=== FILE: paths.dfy ===
/**
 * File URLs as the playground system uses them: an absolute path is the
 * sequence of its non-empty components (no component holds a '/'), rendered
 * as "/a/b/c" by `url.path`. A component's extension is what follows its
 * last '.', and its stem what precedes it; a '.' that is the name's first
 * character, as in ".gitignore", separates nothing.
 */
module Paths {
  import opened Wrappers

  /** A path component is never empty. */
  type Component = c: string | c != "" witness "a"
  type Path = seq<Component>

  /** Paths whose components are separated unambiguously when rendered. */
  predicate WellFormed(p: Path) {
    forall i :: 0 <= i < |p| ==> '/' !in p[i]
  }

  /** "/c0/c1/.../cn", one slash before each component. */
  function Slashed(p: Path): (s: string)
    ensures |s| >= |p|
    ensures p != [] ==> s[0] == '/'
  {
    if p == [] then "" else "/" + p[0] + Slashed(p[1..])
  }

  /** `url.path`: the root renders as "/". */
  function PathString(p: Path): (s: string)
    ensures |s| > 0 && s[0] == '/'
  {
    if p == [] then "/" else Slashed(p)
  }

  /** `t` occurs in `s` starting at index `k`. */
  predicate OccursAt(s: string, t: string, k: int) {
    0 <= k <= |s| - |t| && s[k..k + |t|] == t
  }

  /**
   * `String.contains` for a substring: only a string at least as long
   * contains it, and every string contains itself.
   */
  predicate Contains(s: string, t: string)
    ensures Contains(s, t) ==> |t| <= |s|
    ensures t == s ==> Contains(s, t)
  {
    assert OccursAt(s, s, 0);
    exists k | 0 <= k <= |s| - |t| :: OccursAt(s, t, k)
  }

  /**
   * `isDependency`: the rendered path mentions a "Pods" or "Carthage" folder,
   * which for a well-formed path means a folder on the way has that name.
   */
  predicate IsDependency(p: Path)
    ensures WellFormed(p) ==>
      (IsDependency(p) <==> exists i :: 0 <= i < |p| - 1 && (p[i] == "Pods" || p[i] == "Carthage"))
  {
    var shown := Contains(PathString(p), "/Pods/") || Contains(PathString(p), "/Carthage/");
    // The branches agree; the first only proves the characterisation for a well-formed path.
    if WellFormed(p) then DependencyByComponents(p); shown else shown
  }

  /** The index of the last '.' in a name that separates an extension, if any. */
  function LastDot(c: string): (r: Option<nat>)
    ensures r.None? ==> c == [] || '.' !in c[1..]
    ensures r.Some? ==> 0 < r.value < |c| && c[r.value] == '.' && '.' !in c[r.value + 1..]
  {
    if |c| <= 1 then None
    else if c[|c| - 1] == '.' then Some(|c| - 1)
    else
      var r := LastDot(c[..|c| - 1]);
      assert c == c[..|c| - 1] + [c[|c| - 1]];
      assert c[1..] == c[..|c| - 1][1..] + [c[|c| - 1]];
      r
  }

  /**
   * `pathExtension` of a component: what follows its last '.', or "" when
   * no '.' but possibly the first character is there.
   */
  function Extension(c: string): (e: string)
    ensures '.' !in e
    ensures |e| <= |c| && e == c[|c| - |e|..]
    ensures c != "" ==> |e| < |c|
    ensures (c == [] || '.' !in c[1..]) ==> e == ""
  {
    match LastDot(c)
    case Some(i) => c[i + 1..]
    case None => ""
  }

  /**
   * `deletingPathExtension` of a component (and NefCommon's `removeExtension`):
   * never empty, and the whole name when it has no extension separator.
   */
  function Stem(c: string): (s: string)
    ensures |s| <= |c| && s == c[..|s|]
    ensures c != "" ==> s != ""
    ensures (c == [] || '.' !in c[1..]) ==> s == c
  {
    match LastDot(c)
    case Some(i) => c[..i]
    case None => c
  }

  /**
   * `appendingPathExtension` of a component: with a dot-free extension, the
   * extension and the stem read back are exactly the ones put in.
   */
  function WithExtension(c: Component, e: string): (r: Component)
    ensures '.' !in e ==> LastDot(r) == Some(|c|) && Extension(r) == e && Stem(r) == c
  {
    // The branches agree; the second only proves the round trip for a dot-free extension.
    if '.' in e then c + "." + e
    else DotExtensionRoundTrip(c, e); c + "." + e
  }

  /** A component is its stem, followed by its extension when it has a separating dot. */
  lemma {:induction false} StemAndExtension(c: Component)
    ensures LastDot(c).Some? ==> c == Stem(c) + "." + Extension(c)
    ensures LastDot(c).None? ==> c == Stem(c) && Extension(c) == ""
  {
    if LastDot(c).Some? {
      var i := LastDot(c).value;
      assert c == c[..i] + [c[i]] + c[i + 1..];
    }
  }

  /** Giving a non-empty stem a dot-free extension and reading it back. */
  lemma {:induction false} DotExtensionRoundTrip(s: Component, e: string)
    requires '.' !in e
    ensures LastDot(s + "." + e) == Some(|s|)
    ensures Extension(s + "." + e) == e
    ensures Stem(s + "." + e) == s
  {
    var c: Component := s + "." + e;
    assert c[|s|] == '.' && c[|s| + 1..] == e && c[..|s|] == s;
    LastDotIsLast(c, |s|);
  }

  /** A '.' past the first character with no '.' after it is the last dot. */
  lemma {:induction false} LastDotIsLast(c: string, i: nat)
    requires 0 < i < |c| && c[i] == '.' && '.' !in c[i + 1..]
    ensures LastDot(c) == Some(i)
    decreases |c|
  {
    if i < |c| - 1 {
      assert c[|c| - 1] in c[i + 1..];
      var c' := c[..|c| - 1];
      assert c'[i + 1..] == c[i + 1..|c| - 1];
      assert c'[i + 1..] <= c[i + 1..];
      LastDotIsLast(c', i);
    }
  }

  /** `deletingLastPathComponent`. */
  function Parent(p: Path): (q: Path)
    requires p != []
    ensures |q| == |p| - 1 && p == q + [p[|p| - 1]]
  {
    p[..|p| - 1]
  }

  /** Dropping the last component keeps a path well-formed. */
  lemma ParentWellFormed(p: Path)
    requires p != [] && WellFormed(p)
    ensures WellFormed(Parent(p)) && '/' !in LastComponent(p)
  {
    forall i | 0 <= i < |p| - 1 ensures '/' !in Parent(p)[i] {
      assert Parent(p)[i] == p[i];
    }
  }

  /** Appending a slash-free component keeps a path well-formed. */
  lemma AppendWellFormed(p: Path, c: Component)
    requires WellFormed(p) && '/' !in c
    ensures WellFormed(p + [c])
  {
    forall i | 0 <= i < |p| + 1 ensures '/' !in (p + [c])[i] {
      if i < |p| {
        assert (p + [c])[i] == p[i];
      }
    }
  }

  function LastComponent(p: Path): Component
    requires p != []
  {
    p[|p| - 1]
  }

  /** `deletingPathExtension().appendingPathExtension(e)` on a URL. */
  function ReplacingExtension(p: Path, e: string): (q: Path)
    requires p != []
    ensures |q| == |p| && Parent(q) == Parent(p)
    ensures '.' !in e ==> Extension(LastComponent(q)) == e && Stem(LastComponent(q)) == Stem(LastComponent(p))
  {
    Parent(p) + [WithExtension(Stem(LastComponent(p)), e)]
  }

  /** Swapping the extension of a well-formed path for a slash-free one keeps it well-formed. */
  lemma ReplacingExtensionWellFormed(p: Path, e: string)
    requires p != [] && WellFormed(p) && '/' !in e
    ensures WellFormed(ReplacingExtension(p, e))
  {
    ParentWellFormed(p);
    var last := LastComponent(p);
    var name := WithExtension(Stem(last), e);
    forall i | 0 <= i < |name| ensures name[i] != '/' {
      if i < |Stem(last)| {
        assert name[i] == Stem(last)[i] == last[i];
      } else if i > |Stem(last)| {
        assert name[i] == e[i - |Stem(last)| - 1];
      }
    }
    AppendWellFormed(Parent(p), name);
  }

  // ---------------------------------------------------------------------
  // `path.contains("/<dir>/")` in terms of the components.

  /** A dot-free, slash-free component name, such as a folder name. */
  predicate PlainName(t: string) {
    |t| > 0 && '/' !in t
  }

  /** A rendered path shows "/t/" exactly where a non-last component is t. */
  lemma {:induction false} SlashedContainsFolder(p: Path, t: string)
    requires WellFormed(p) && PlainName(t)
    ensures Contains(Slashed(p), "/" + t + "/") <==> exists i :: 0 <= i < |p| - 1 && p[i] == t
  {
    if Contains(Slashed(p), "/" + t + "/") {
      FolderShownIsComponent(p, t);
    }
    if exists i :: 0 <= i < |p| - 1 && p[i] == t {
      var i :| 0 <= i < |p| - 1 && p[i] == t;
      ComponentIsFolderShown(p, t, i);
    }
  }

  /** Where "/t/" shows in a rendered path, some non-last component is t. */
  lemma {:induction false} FolderShownIsComponent(p: Path, t: string)
    requires WellFormed(p) && PlainName(t)
    requires Contains(Slashed(p), "/" + t + "/")
    ensures exists i :: 0 <= i < |p| - 1 && p[i] == t
    decreases |p|
  {
    var w := "/" + t + "/";
    var s := Slashed(p);
    if p == [] {
      assert false;
    }
    var rest := Slashed(p[1..]);
    var h := p[0];
    assert s == "/" + h + rest;
    assert '/' !in h;
    var k :| 0 <= k <= |s| - |w| && OccursAt(s, w, k);
    assert s[k..k + |w|] == w;
    if k == 0 {
      FolderAtStart(h, rest, t);
      assert p[0] == t && |p| >= 2;
    } else {
      assert s[k] == '/';
      assert k > |h| by {
        assert forall i :: 1 <= i <= |h| ==> s[i] == h[i - 1] && s[i] != '/';
      }
      var j := k - 1 - |h|;
      assert rest[j..j + |w|] == s[k..k + |w|];
      assert OccursAt(rest, w, j);
      assert WellFormed(p[1..]);
      FolderShownIsComponent(p[1..], t);
      var i :| 0 <= i < |p[1..]| - 1 && p[1..][i] == t;
      assert 0 <= i + 1 < |p| - 1 && p[i + 1] == t;
    }
  }

  /** A non-last component t shows as "/t/" in the rendered path. */
  lemma {:induction false} ComponentIsFolderShown(p: Path, t: string, i: nat)
    requires i < |p| - 1 && p[i] == t
    ensures Contains(Slashed(p), "/" + t + "/")
    decreases i
  {
    var w := "/" + t + "/";
    var s := Slashed(p);
    var rest := Slashed(p[1..]);
    var h := p[0];
    assert s == "/" + h + rest;
    if i == 0 {
      assert rest[0] == '/';
      assert s[..|w|] == w;
      assert OccursAt(s, w, 0);
    } else {
      assert p[1..][i - 1] == t;
      ComponentIsFolderShown(p[1..], t, i - 1);
      var j :| 0 <= j <= |rest| - |w| && OccursAt(rest, w, j);
      var k := 1 + |h| + j;
      assert s[k..k + |w|] == rest[j..j + |w|];
      assert OccursAt(s, w, k);
    }
  }

  /** "/t/" at the very start of "/" + h + rest means h is t and rest follows. */
  lemma {:induction false} FolderAtStart(h: string, rest: string, t: string)
    requires '/' !in h && PlainName(t)
    requires rest != [] ==> rest[0] == '/'
    requires |"/" + t + "/"| <= |"/" + h + rest|
    requires ("/" + h + rest)[..|t| + 2] == "/" + t + "/"
    ensures h == t && rest != []
  {
    var s := "/" + h + rest;
    assert s[|t| + 1] == '/';
    assert |h| == |t| by {
      assert forall i :: 0 <= i < |h| ==> s[1 + i] == h[i] && h[i] != '/';
      assert forall i :: 0 <= i < |t| ==> s[1 + i] == t[i] && t[i] != '/';
      if rest != [] {
        assert s[1 + |h|] == rest[0] == '/';
      }
    }
    assert h == s[1..|t| + 1] == t;
  }

  /** The rendered path shows "/Pods/" or "/Carthage/" exactly when a folder on the way has that name. */
  lemma {:induction false} DependencyByComponents(p: Path)
    requires WellFormed(p)
    ensures Contains(PathString(p), "/Pods/") || Contains(PathString(p), "/Carthage/") <==> exists i :: 0 <= i < |p| - 1 && (p[i] == "Pods" || p[i] == "Carthage")
  {
    if p == [] {
      assert !Contains("/", "/Pods/") && !Contains("/", "/Carthage/");
    } else {
      assert "/Pods/" == "/" + "Pods" + "/";
      assert "/Carthage/" == "/" + "Carthage" + "/";
      SlashedContainsFolder(p, "Pods");
      SlashedContainsFolder(p, "Carthage");
    }
  }
}

=== FILE: playground_system_error.dfy ===
/**
 * `PlaygroundSystemError`: the three failure kinds of the playground system,
 * each carrying a free-text `information` that defaults to the empty string,
 * and the human-readable description built from them.
 */
module PlaygroundSystemErrors {

  datatype PlaygroundSystemError =
    | Xcworkspaces(information: string := "")
    | Playgrounds(information: string := "")
    | Pages(information: string := "")

  /** The word naming the failed operation, one per case. */
  function Kind(e: PlaygroundSystemError): (k: string)
    ensures |k| > 0 && ' ' !in k && '(' !in k
  {
    match e
    case Xcworkspaces(_) => "workspaces"
    case Playgrounds(_) => "playgrounds"
    case Pages(_) => "pages"
  }

  /**
   * `description`: "<kind> operation " followed by "(<information>)" when the
   * information is not empty, and by nothing otherwise.
   */
  function Description(e: PlaygroundSystemError): (d: string)
    ensures e.information == "" ==> d == Kind(e) + " operation "
    ensures e.information != "" ==> d == Kind(e) + " operation " + "(" + e.information + ")"
  {
    var prefix := Kind(e) + " operation ";
    if e.information == "" then prefix else prefix + "(" + e.information + ")"
  }

  /** Omitting the information is the same as passing the empty string. */
  lemma DefaultInformationIsEmpty()
    ensures Xcworkspaces().information == ""
    ensures Playgrounds().information == ""
    ensures Pages().information == ""
    ensures Description(Xcworkspaces()) == "workspaces operation "
    ensures Description(Playgrounds()) == "playgrounds operation "
    ensures Description(Pages()) == "pages operation "
  {
  }

  /** The kind word determines the case. */
  lemma {:induction false} KindIdentifiesCase(e1: PlaygroundSystemError, e2: PlaygroundSystemError)
    ensures Kind(e1) == Kind(e2) <==> e1.Xcworkspaces? == e2.Xcworkspaces? && e1.Playgrounds? == e2.Playgrounds?
  {
    if Kind(e1) == Kind(e2) {
      assert Kind(e1)[..2] == Kind(e2)[..2];
    }
  }

  /** The description always starts with the kind word and " operation ". */
  lemma {:induction false} DescriptionStartsWithKind(e: PlaygroundSystemError)
    ensures var p := Kind(e) + " operation "; |p| <= |Description(e)| && Description(e)[..|p|] == p
  {
  }

  /** Reading the information back from a description. */
  lemma {:induction false} DescriptionRecoversInformation(e: PlaygroundSystemError)
    ensures var n := |Kind(e) + " operation "|; var d := Description(e);
      if d == Kind(e) + " operation " then e.information == ""
      else e.information == d[n + 1 .. |d| - 1]
  {
    var n := |Kind(e) + " operation "|;
    var d := Description(e);
    if e.information != "" {
      assert |d| == n + |e.information| + 2;
      assert d[n + 1 .. |d| - 1] == e.information;
    }
  }

  /** Two errors with the same description are the same error. */
  lemma {:induction false} DescriptionInjective(e1: PlaygroundSystemError, e2: PlaygroundSystemError)
    requires Description(e1) == Description(e2)
    ensures e1 == e2
  {
    var d := Description(e1);
    // The kind word ends at the first space of the description.
    assert d[..|Kind(e1)|] == Kind(e1) && d[|Kind(e1)|] == ' ';
    assert d[..|Kind(e2)|] == Kind(e2) && d[|Kind(e2)|] == ' ';
    assert Kind(e1) == Kind(e2);
    KindIdentifiesCase(e1, e2);
    DescriptionRecoversInformation(e1);
    DescriptionRecoversInformation(e2);
  }
}

=== FILE: wrappers.dfy ===
/** The Option and Result types used throughout the model. */
module Wrappers {

  datatype Option<+T> = None | Some(value: T)

  /** The outcome of an effect that either yields a value or raises an error. */
  datatype Result<+T, +E> = Ok(value: T) | Err(error: E)
}
